=== FILE: README.md ===
# Persistent vector: a Dafny model of d11wtq/persistent

This project models the Go package `vector` of d11wtq/persistent. The package is a persistent
vector: a 32-way bit-partitioned trie with path copying. The model has two layers.

- **The node engine (`vector/node.go`), module `Nodes`.**
  - A `Node` is a sequence of slots plus a uint32 `shift`.
  - A slot holds a value in a leaf and a child node one level (5 bits) lower in an internal node.
  - `Get` descends by `(key >> shift) & 31` and then bounds-checks the leaf slot `key & 31`.
  - `Set` builds a new root with `NewRoot` and copies the path with `CopySubKey`. It then writes the leaf with `SetSubKey`.
  - `Pop` trims the rightmost leaf.
  - Go mutates freshly copied nodes in place. Here every step builds a new immutable value, so the receiver of an operation is unchanged by construction.
- **The vector handle (`vector/vector.go`), module `Vectors`.**
  - A `Vector` is a root, a `length` and an `offset`. Element `i` is root key `offset + i`.
  - `View` collects the elements into a sequence, and each operation is specified by what it does to that sequence.
  - `Valid` is the representation invariant. The root is well formed and at most 32 wide. It addresses every key up to `offset + length` without aliasing, and every element's key holds a value.
  - `AppendReady` says that the key `offset + length` sits on the right edge (the "frontier") of the root that `Set` will build for it.
  - `Appendable` is what `Append` needs: `offset + length` is below the largest uint32, and the vector is non-empty, or has offset 0, or is `AppendReady`. The key after a stored one and key 0 can always be written; only an empty vector with an offset depends on the shape of its root.

Supporting modules:

- `Bits` holds Go's uint32 `>>` and `<<`, which give 0 once the shift count reaches 32. It also holds the mixed-radix arithmetic behind "distinct keys take distinct paths".
- `Errors` holds `OutOfBounds(key)` and a `Result` type standing for Go's `(value, error)` pair.
- `NodeLemmas` holds properties that relate several node calls: non-interference, read-after-write, the append frontier, and the overflow scenarios.
- `VectorLemmas` states the handle's behaviour through `Get` and `Count` alone.

Behaviour kept as written:

- **The growth test of `NewRoot` is inverted.** `(1 << shift) < (key >> 5)` holds only for keys beyond the capacity, so every `Set` within capacity wraps the root in a new level. This continues while the shift is below 32.
  - From shift 32 on, Go's shifts make the test `0 < key >> 5`. The root is then copied for every key from 32 up.
  - `NodeLemmas.SetPastCapacityAliases` shows the consequence for a key past the capacity: on a 3-element leaf, `Set(64, v)` overwrites key 0.
  - The vector layer never issues such a key, because `Valid` keeps `offset + length` within the root's capacity.
- **`Vector.Prepend` at offset 0 returns the receiver unchanged,** as the code does. The code's own FIXME at vector/vector.go:83 ("Allocate more space to the left in O(1) time") marks this as unfinished. This model follows the code.

Proofs hide the definitions they do not use, with Dafny's `hide` statement. Each step then sees only the facts it needs.

## Model

| member | source | states |
|---|---|---|
| Nodes.Get | vector/node.go:13-24 | The lookup succeeds exactly when the leaf slot `key & 31` is below the width of the leaf reached by following the slots `(key >> shift) & 31`. It then returns that slot's value; otherwise it returns `OutOfBounds(key)`. |
| Nodes.Copy | vector/node.go:65-72 | The copy has the same elements and shift as the original and cannot be told apart from it. |
| Nodes.NewRoot | vector/node.go:74-85 | The result is the original root itself, or a new node whose only slot is the original root and whose shift is `shift + 5` (mod 2^32). It is well formed and no shallower whenever the original is well formed. |
| Nodes.NewRootWraps | vector/node.go:76-85 | The inverted growth test always wraps a root below shift 32 for a key within its capacity. From shift 32 on, it keeps the root exactly for keys of 32 and more. |
| Nodes.NewRootCapacity | vector/node.go:74-85 | For a key up to the root's capacity, the key lies strictly inside the capacity of the new root, and so does the next key. |
| Nodes.NewRootShift | vector/node.go:76-85 | The new root's shift is `shift + 5`, except from shift 32 on for keys of 32 and more, where it is unchanged. |
| Nodes.CopySubKey | vector/node.go:87-104 | At the append position, a fresh empty child with shift `shift - 5` is appended and the width grows by one. Elsewhere, slot `key` holds an identical copy of its child. Every other slot is unchanged. |
| Nodes.SetSubKey | vector/node.go:106-120 | It succeeds exactly when `key <= width`. The width grows by one exactly when `key == width`, slot `key` holds the value and every other slot is unchanged. A refusal leaves the node untouched. |
| Nodes.SetPath | vector/node.go:30-40 | The descent below the new root fails with `OutOfBounds(key)` exactly when `key & 31` is beyond the width of the leaf it reaches. On success the tree is well formed, keeps its shift and narrowness, and reads the value at `key`. |
| Nodes.Set | vector/node.go:26-41 | It fails with `OutOfBounds(key)` exactly when the leaf slot is beyond the reached leaf's width. On success the root is well formed, keeps its narrowness, has the new root's shift and reads the value at `key`. |
| Nodes.Pop | vector/node.go:43-58 | A width-0 node is returned as is. Otherwise the result is the original with only the last slot of its right-edge leaf removed (`PoppedEdge`): at every level the shift is kept and every slot left of the right edge is unchanged. The stored values lose exactly their last one, and well-formedness and narrowness are kept. |
| NodeLemmas.PopReads | vector/node.go:43-58 | After `Pop`, every key the root walks still walks. The key at the last slot of the right-edge leaf held a value and now reads `OutOfBounds`; every other key reads as before. |
| NodeLemmas.PoppedEdgeReads | vector/node.go:51-55 | Trimming only the last slot of the right-edge leaf loses exactly the read of the key that reaches that slot. |
| Bits.DistinctKeysDiverge | vector/node.go:15-33 | Two distinct keys below a node's capacity differ in some slot index `(key >> s) & 31` on the way down. |
| NodeLemmas.SetPathFrame | vector/node.go:32-36 | Writing `key` below a node leaves every key whose path leaves the path of `key` readable, with the same value. |
| NodeLemmas.SetFrame | vector/node.go:26-41 | Non-interference: after a successful `Set(key)` on a root, every other walkable key below the root's capacity stays walkable and reads as before. |
| NodeLemmas.SetReads | vector/node.go:26-41 | Read after write: the written key reads the new value, and every other readable key below the capacity reads as before. |
| NodeLemmas.WriteShape | vector/node.go:33-36 | A successful `Set` keeps the root well formed, and keeps every node at most 32 wide when the original was. The capacity never shrinks and covers the key after the written one. |
| NodeLemmas.ReadableSetOk | vector/node.go:26-41 | A key the root holds below its capacity can always be overwritten, with no panic and no `OutOfBounds`. |
| NodeLemmas.SuccSetOk | vector/node.go:26-41 | The key after a readable key can always be written, with no panic and no `OutOfBounds`, while it stays within the root's capacity and below the largest uint32. |
| NodeLemmas.ZeroSetOk | vector/node.go:26-41 | Key 0 can always be written, on any well-formed root. |
| NodeLemmas.SuccDescend | vector/node.go:30-40 | Below a node that reads key `k`, the descent of `Set` for `k + 1` never panics and reaches a leaf whose slot `(k + 1) & 31` is at most its width, provided `k + 1` is not a multiple of the node's capacity. |
| NodeLemmas.ZeroDescend | vector/node.go:30-40 | The descent of `Set` for a key whose bits below the node's capacity are all 0 never panics and reaches a leaf that can take the key. |
| NodeLemmas.FrontierUnread | vector/node.go:13-24 | A key at the append frontier holds no value. |
| NodeLemmas.AppendFrontier | vector/node.go:26-41 | A `Set` at the frontier key succeeds. The key after it is then at the frontier of the root the next `Set` starts from. |
| NodeLemmas.FrontierWriteBelow | vector/node.go:32-36 | Writing a key whose low digits are below those of the frontier key keeps that key at the frontier of the copied path. |
| NodeLemmas.NewRootFrontier | vector/node.go:74-85 | If a key is at the frontier of the root built for it, it is also at the frontier of the root built for any smaller key within capacity, and it lies inside that root's capacity. |
| NodeLemmas.WriteBelowKeepsFrontier | vector/node.go:26-41 | A successful `Set` of a key below the frontier key keeps the frontier key at the frontier of the root the next `Set` builds, while the shift has room. |
| NodeLemmas.AppendNextUnread | vector/node.go:26-41 | After an append at the frontier, the key after the appended one is still not readable. |
| NodeLemmas.FullLeafGrows | src/github.com/d11wtq/persistent/vector/vector_test.go:237-262 | A full 32-wide leaf accepts key 32 by growing to shift 5. Key 32 reads the new value, keys 0-31 read as before, and key 33 is not readable. |
| NodeLemmas.FullTwoLevelGrows | src/github.com/d11wtq/persistent/vector/vector_test.go:264-296 | A full 1024-element two-level tree accepts key 1024 by growing to shift 10. Key 1024 reads the new value, keys 0-1023 read as before, and key 1025 is not readable. |
| NodeLemmas.PopEmptiesRightLeaf | vector/node.go:43-58 | On a shift-5 root over a one-value leaf, `Pop` empties the right-edge leaf but keeps its branch. The result is 1 wide with an empty right-edge leaf, so it no longer meets `Pop`'s precondition. |
| NodeLemmas.SetPastCapacityAliases | vector/node.go:74-85 | For a key past the root's capacity the growth test only copies the root: `Set(64, v)` on the leaf [a, b, c] overwrites key 0. |
| Vectors.Empty | vector/vector.go:16-21 | The empty vector is valid, has length 0 and offset 0, and its view is empty. |
| Vectors.Count | vector/vector.go:32-35 | The count is the number of elements in the view. |
| Vectors.Get | vector/vector.go:37-45 | It fails with `OutOfBounds(key)` exactly when `key >= length`. Otherwise it returns element `key` of the view. |
| Vectors.Set | vector/vector.go:47-66 | It fails with `OutOfBounds(key)` exactly when `key > length`. Otherwise the result is valid with the same offset. Below the length the node write always succeeds, the view has element `key` replaced and the length is unchanged. At the length the node write succeeds when the vector is non-empty, has offset 0 or is ready for an append, the view gains `value` at the end and the length grows by one. An overwrite keeps the vector ready for an append, while the shift has room. |
| Vectors.Append | vector/vector.go:68-77 | It never fails on an appendable vector: valid, with room for one more key, and non-empty, at offset 0 or ready for an append. The view gains `value` at the end, the length grows by one and the offset is kept. The result is appendable again while the length has room, and stays ready for an append when it was, while the shift has room. |
| Vectors.Prepend | vector/vector.go:79-92 | At offset 0 the receiver is returned unchanged. Otherwise the view gains `value` in front, the offset drops by one and the length grows by one. A vector ready for an append stays ready, while the shift has room. |
| Vectors.OverwriteKeepsReady | vector/vector.go:51-66 | Writing an element below the length of a vector ready for an append succeeds at the node level, and the result is again ready for an append while the shift has room. |
| Vectors.PrependKeepsReady | vector/vector.go:86-91 | The root write of `Prepend` at key `offset - 1` keeps a vector ready for an append while the shift has room: the key `offset + length` stays on the right edge. |
| Vectors.Truncate | vector/vector.go:94-107 | For `n >= length` the receiver is returned. Otherwise the result keeps the first `n` elements of the view, with length `n` and the same offset. |
| Vectors.Drop | vector/vector.go:109-124 | For `n >= length` the result is the empty vector, and for `n == 0` the receiver. Otherwise the view loses its first `n` elements, the length drops by `n` and the offset grows by `n`. |
| Vectors.Pop | vector/vector.go:126-135 | It is a no-op on the empty vector. Otherwise the view loses its last element. |
| Vectors.Shift | vector/vector.go:137-146 | It is a no-op on the empty vector and gives the empty vector from one element. Otherwise the view loses its first element and the offset grows by one. |
| Vectors.New | vector/vector.go:23-30 | The vector built from `xs` has view `xs`, offset 0 and length `\|xs\|`. Its root shift is 5 per element up to 32 elements, and it is ready for another append. |
| Vectors.AppendAll | vector/vector.go:25-29 | Appending `xs` one element at a time yields the view followed by `xs` and keeps the shape of a vector built by appends alone. |
| VectorLemmas.GetView | vector/vector.go:32-45 | `Count` is the view's length, and `Get` returns view element `key` below it and `OutOfBounds(key)` from it on. |
| VectorLemmas.SetThenGet | vector/vector.go:47-66 | Update round trip: `Set(k, v).Get(k) == v` for `k < Count`, the count is unchanged, and every other index reads as before. |
| VectorLemmas.AppendThenGet | vector/vector.go:68-77 | On any appendable vector, including a non-empty result of `Truncate`, `Drop`, `Pop` or `Shift`: after `Append(v)` the count grows by one, the old count reads `v`, and every earlier index reads as before. |
| VectorLemmas.NewThenGet | vector/vector.go:23-30 | `New(xs...)` has count `\|xs\|`, reads `xs[i]` at `i` and reads `OutOfBounds` past the end. |
| VectorLemmas.SetOverwriteAppend | vector/vector_test.go:382-406 | Set at 0 on a vector whose root is an empty leaf, overwrite at 0 and Set at 1 all succeed, with counts 1, 1 and 2 and contents `[b, c]`. The starting vector is ready for an append, and the overwrite keeps the vector ready for the second append. |
| VectorLemmas.SetIntoEmpty | vector/vector_test.go:382-395 | `Set(0, a)` on a vector whose root is an empty leaf succeeds with one element, a shift-5 root and a vector ready for the next append. |
| VectorLemmas.OverwriteSingle | vector/vector.go:51-66 | Overwriting the only element of a one-element vector gives view `[b]` and keeps the vector ready for an append. |
| VectorLemmas.AppendSecond | vector/vector.go:51-66 | `Set(1, c)` on a one-element vector succeeds, and the view gains `c` at the end. |
| VectorLemmas.TruncateThenAppend | vector/vector.go:68-107 | After `Truncate(n)` to a non-empty prefix the vector is appendable, whatever shape the truncated root has. `Append(v)` then reads `v` at `n`, the kept prefix reads as before, and the count is `n + 1`. |
| VectorLemmas.NewNothing | vector/vector.go:16-30 | `New()` with no elements is the empty vector. |
| VectorLemmas.PrependThenGet | vector/vector.go:79-92 | With room on the left, `Prepend(v)` reads `v` at 0 and old index `i` at `i + 1`, and the count grows by one. Without room, the receiver is returned. |
| VectorLemmas.TruncateThenGet | vector/vector.go:94-107 | `Truncate(n)` keeps every index below `n` and fails from `n` on. Truncating the result to `n` again returns it unchanged (idempotence). |
| VectorLemmas.DropThenGet | vector/vector.go:109-124 | After `Drop(n)`, new index `i` reads old index `n + i`, and the count is `length - n`, or 0 when `n >= length`. |

## Left out

- `persistent.go`: a one-line wrapper around `vector.New`.
- `OutOfBounds.Error()`: the `fmt.Sprintf` message. Only the key the error carries is modelled.
- `Node.Truncate`, `Node.EraseTo`, `EmptyNode` and `Fill` are not part of this model. Their source is not among the files modelled here.
  - `Truncate` and `Pop` take the root `Node.Truncate` returns as a parameter (`KeepsBelow`). `Drop` and `Shift` do the same for `Node.EraseTo` (`KeepsFrom`).
  - The doc comments of vector/vector.go promise only that the kept keys read unchanged. Both predicates also assume three things of the returned root: it is well formed (`WF`), every node is at most 32 wide (`Narrow`), and it still addresses every key up to the old end (`end <= Cap(shift)`).
  - `Valid` of the results of `Truncate`, `Drop`, `Pop` and `Shift` rests on these assumptions.
  - These results are appendable whenever `offset + length` is below the largest uint32 and they are non-empty or at offset 0. Only an empty result with an offset, left by `Truncate(0)` or by `Pop` of a one-element vector with an offset, depends on the shape `Node.Truncate` leaves; `Append` on it needs `AppendReady`, which nothing known about `Node.Truncate` provides.
  - The empty root is an empty leaf at shift 0.
- Vectors.Prepend: requires the node write at `offset - 1` to succeed. vector/vector.go:88 uses `Root.Set` as if it returned the node alone, while `Node.Set` in vector/node.go:28 returns `(*Node, error)`; the two files are from different revisions, and the model takes the node of the `Ok` result. After `Drop`, nothing known about `Node.EraseTo` guarantees that the slot left of the offset can be written.
- Vectors.Get: vector/vector.go:41 likewise uses `Root.Get` as if it returned the value alone, while `Node.Get` returns `(Value, error)`; under `Valid` every element's key reads, so the model takes the value of the `Ok` result.
- Vectors.Set: the same single-valued use of `Root.Set` at vector/vector.go:62. At `key == length` the model requires an appendable vector; the node write is then shown to succeed. The only case this leaves out is an empty vector with an offset whose root is not ready for an append, where whether Go's write succeeds depends on the unknown root.
- Nodes.Pop: cannot be repeated once it empties a right-edge leaf. The emptied leaf keeps its branch, and a second `Pop` would slice it to `Width() - 1`, which wraps to 0xFFFFFFFF and panics (`NodeLemmas.PopEmptiesRightLeaf`). The model requires `RightEdgeFilled`.
- Nodes.Width: modelled as the length of the slot sequence, with no contract of its own.
- Go runtime panics are preconditions, not modelled behaviour:
  - a failed `.(*Node)` type assertion or an out-of-range index in `Get`, `Set`, `CopySubKey` and `Pop`;
  - the panic of `Append` on a failed `Set`;
  - the preconditions are `Walkable`, `WF` plus `Descendable`, `RightEdgeFilled`, and `Valid` plus `Appendable`.
- uint32 wrap-around of `shift + 5`, which takes hundreds of millions of root growths:
  - bounded out by the precondition `root.shift + BITS <= U32_MAX`;
  - NodeLemmas.AppendNextUnread asks for room for two more levels.
- uint32 wrap-around of `offset + key` and of `length + 1`:
  - `Valid` keeps `offset + length` within uint32;
  - `Appendable` keeps it below the largest uint32 before an append, so neither sum wraps in the model.
- Vectors.New: requires at most 2^32 - 1 elements, the most a uint32 length can count.
- Persistence (the receiver of `Set`, `Append` and the rest keeps its old length and contents): immediate for immutable values, so no lemma states it. Pointer identity, structural sharing and garbage collection are not modelled.
- Left-capacity allocation for `Prepend` at offset 0 (the FIXME at vector/vector.go:83), and the prepend-from-empty expectations of the tests: the modelled code does neither.

=== FILE: bits.dfy ===
/**
  Key arithmetic of the trie: Go's uint32 shifts and masks, and the
  mixed-radix facts that make two distinct keys take distinct paths.

  A key is a Go `uint32`. Go defines `x >> s` and `1 << s` on a uint32 to be 0
  once the shift count reaches 32, and the root shift keeps growing past 32,
  so both operators are written out with that rule.
*/
module Bits {

  /** Go's `uint32`. */
  type u32 = x: int | 0 <= x < 0x1_0000_0000

  const U32_MAX: int := 0xFFFF_FFFF

  /** PARTITION_BITS: key bits consumed per level. */
  const BITS: nat := 5

  /** SIZE: slots per node, 1 << BITS. */
  const SIZE: nat := 32

  // Moduli by BITS and SIZE are written below as the literals 5 and 32, which
  // keeps them linear for the solver; `& PARTITION_MASK` is `% 32`.

  function Pow2(n: nat): (r: nat)
    ensures r >= 1
  {
    if n == 0 then 1 else 2 * Pow2(n - 1)
  }

  /** Go's `key >> s` on a uint32. */
  function Shr(key: u32, s: nat): (r: u32)
    ensures r <= key
    ensures s >= 32 ==> r == 0
  {
    if s >= 32 then 0 else Halve(key, s)
  }

  /** `x` shifted right `s` times, one bit at a time. */
  function Halve(x: nat, s: nat): (r: nat)
    ensures r <= x
  {
    if s == 0 then x else Halve(x, s - 1) / 2
  }

  /** Go's `1 << s` when the result is a uint32. */
  function Shl1(s: nat): nat
  {
    if s >= 32 then 0 else Pow2(s)
  }

  /** `(key >> s) & PARTITION_MASK`: the slot a node at shift `s` uses for `key`. */
  function Digit(key: u32, s: nat): (d: nat)
    ensures d < SIZE
  {
    Shr(key, s) % 32
  }

  /** `key & PARTITION_MASK`: the slot used in a leaf. */
  function Mask(key: u32): (d: nat)
    ensures d < SIZE
  {
    key % 32
  }

  /** Number of keys one slot of a node at shift `s` spans (2^s, but every uint32 key once s >= 32). */
  function Unit(s: nat): (u: nat)
    ensures u >= 1
  {
    if s >= 32 then 0x1_0000_0000 else Pow2(s)
  }

  /** Number of keys a node at shift `s` can address without aliasing. */
  function Cap(s: nat): (c: nat)
    ensures c >= 1
  {
    Unit(s + BITS)
  }

  /** Two keys agree on every slot index from shift `t` down to the leaf. */
  predicate SamePath(t: nat, a: u32, b: u32)
    decreases t
  {
    Digit(a, t) == Digit(b, t) && (t >= BITS ==> SamePath(t - BITS, a, b))
  }

  /**
    The low `s` bits of `x` (`x` modulo 2^s), built one bit at a time so that
    the definition stays linear; `LowUnit` ties it to `% Unit(s)`.
  */
  function Low(x: nat, s: nat): nat
  {
    if s == 0 then 0 else 2 * Low(x / 2, s - 1) + x % 2
  }

  // ---------------------------------------------------------------------
  // Arithmetic facts

  lemma Pow2Step5(n: nat)
    ensures Pow2(n + 5) == 32 * Pow2(n)
  {
    calc {
      Pow2(n + 5);
      2 * Pow2(n + 4);
      4 * Pow2(n + 3);
      8 * Pow2(n + 2);
      16 * Pow2(n + 1);
      32 * Pow2(n);
    }
  }

  lemma Pow2Thirty()
    ensures Pow2(30) == 0x4000_0000
    ensures Pow2(32) == 0x1_0000_0000
  {
    assert Pow2(5) == 32;
    Pow2Step5(5);
    Pow2Step5(10);
    Pow2Step5(15);
    Pow2Step5(20);
    Pow2Step5(25);
    assert Pow2(32) == 4 * Pow2(30);
  }

  lemma {:induction false} Pow2Monotone(n: nat, m: nat)
    requires n <= m
    ensures Pow2(n) <= Pow2(m)
    decreases m - n
  {
    if n < m {
      Pow2Monotone(n, m - 1);
    }
  }

  lemma DivModUnique(a: int, n: int, q: int, r: int)
    requires n > 0 && 0 <= r < n && a == q * n + r
    ensures a / n == q && a % n == r
  {
    var q0, r0 := a / n, a % n;
    assert a == q0 * n + r0;
    var k := q - q0;
    assert k * n == r0 - r;
    if k >= 1 {
      MulAtLeast(k, n);
    } else if k <= -1 {
      MulAtLeast(-k, n);
    }
  }

  lemma MulAtLeast(k: int, n: int)
    requires k >= 1 && n > 0
    ensures k * n >= n
  {
    assert k * n == (k - 1) * n + n;
  }

  /** Mixed radix: the low `u*m` part of `a` is one base-`m` digit of `a/u` above the low `u` part. */
  lemma ModMul(a: nat, u: nat, m: nat)
    requires u > 0 && m > 0
    ensures a % (u * m) == ((a / u) % m) * u + a % u
    ensures a / (u * m) == (a / u) / m
  {
    var q, r := a / u, a % u;
    var q2, d := q / m, q % m;
    Regroup(q2, m, d, u, r);
    DigitBelow(d, m, u, r);
    DivModUnique(a, u * m, q2, d * u + r);
  }

  lemma Regroup(q2: int, m: int, d: int, u: int, r: int)
    ensures (q2 * m + d) * u + r == q2 * (u * m) + (d * u + r)
  {
    assert (q2 * m + d) * u == q2 * m * u + d * u;
  }

  lemma DigitBelow(d: nat, m: nat, u: nat, r: nat)
    requires d < m && r < u
    ensures d * u + r < u * m
  {
    assert d * u <= (m - 1) * u;
    assert (m - 1) * u == u * m - u;
  }

  lemma DigitUnit(key: u32, s: nat)
    ensures Digit(key, s) == (key / Unit(s)) % 32
  {
    if s >= 32 {
      DivModUnique(key, Unit(s), 0, key);
    } else {
      HalveDiv(key, s);
    }
  }

  /** Shifting right `s` times divides by 2^s. */
  lemma {:induction false} HalveDiv(x: nat, s: nat)
    ensures Halve(x, s) == x / Pow2(s)
  {
    if s > 0 {
      HalveDiv(x, s - 1);
      ModMul(x, Pow2(s - 1), 2);
      assert Pow2(s) == Pow2(s - 1) * 2;
    }
  }

  /** `key >> BITS` is the quotient by SIZE. */
  lemma ShrBits(key: u32)
    ensures Shr(key, BITS) == key / 32
  {
    HalveDiv(key, BITS);
    assert Pow2(5) == 32;
  }

  /** `key >> s` below 32 is the quotient by 2^s. */
  lemma ShrDiv(key: u32, s: nat)
    requires s < 32
    ensures Shr(key, s) == key / Pow2(s)
  {
    HalveDiv(key, s);
  }

  /** The low `Cap(t)` part of a key is fixed by its digits from shift `t` down. */
  lemma {:induction false} SamePathLow(t: nat, a: u32, b: u32)
    requires t % 5 == 0
    requires SamePath(t, a, b)
    ensures a % Cap(t) == b % Cap(t)
    decreases t
  {
    hide Pow2, Halve, Shr, Unit, Cap, Digit;
    if t >= BITS {
      SamePathLow(t - BITS, a, b);
    }
    LowStep(t, a, b);
  }

  /** One level of `SamePathLow`: equal digits at `t` extend equal low parts below `t`. */
  lemma LowStep(t: nat, a: u32, b: u32)
    requires t % 5 == 0
    requires t < 32 ==> Digit(a, t) == Digit(b, t)
    requires t >= BITS ==> a % Cap(t - BITS) == b % Cap(t - BITS)
    ensures a % Cap(t) == b % Cap(t)
  {
    if t >= 32 {
      LowAbove32(t, a, b);
    } else if t == 30 {
      LowAt30(a, b);
    } else {
      LowBelow30(t, a, b);
    }
  }

  lemma LowAbove32(t: nat, a: u32, b: u32)
    requires t >= 32
    requires a % Cap(t - BITS) == b % Cap(t - BITS)
    ensures a % Cap(t) == b % Cap(t)
  {
    assert Cap(t - BITS) == Unit(t);
    DivModUnique(a, Unit(t), 0, a);
    DivModUnique(b, Unit(t), 0, b);
    DivModUnique(a, Cap(t), 0, a);
    DivModUnique(b, Cap(t), 0, b);
  }

  lemma LowAt30(a: u32, b: u32)
    requires Digit(a, 30) == Digit(b, 30)
    requires a % Cap(25) == b % Cap(25)
    ensures a % Cap(30) == b % Cap(30)
  {
    SplitAt30(a);
    SplitAt30(b);
  }

  /** A key is its top digit (shift 30) above its low 30 bits. */
  lemma SplitAt30(a: u32)
    ensures Cap(25) == 0x4000_0000 && Cap(30) == 0x1_0000_0000
    ensures a == Digit(a, 30) * 0x4000_0000 + a % Cap(25)
  {
    Pow2Thirty();
    DigitUnit(a, 30);
    QuotientBelow(a, Unit(30));
    var q := a / Unit(30);
    DivModUnique(q, 32, 0, q);
  }

  /** Dividing a uint32 by at least 2^30 leaves a quotient below 4. */
  lemma QuotientBelow(a: u32, u: nat)
    requires u >= 0x4000_0000
    ensures a / u < 4 && a == (a / u) * u + a % u
  {
    MulMono(4, a / u, u);
  }

  lemma LowBelow30(t: nat, a: u32, b: u32)
    requires t < 30 && t % 5 == 0
    requires Digit(a, t) == Digit(b, t)
    requires t >= BITS ==> a % Cap(t - BITS) == b % Cap(t - BITS)
    ensures a % Cap(t) == b % Cap(t)
  {
    hide Halve, Shr, Digit;
    CapSplit(t);
    DigitUnit(a, t);
    DigitUnit(b, t);
    var u := Pow2(t);
    hide Pow2, Unit, Cap;
    if t < BITS {
      assert a % u == 0 == b % u;
    }
    LowCore(a, b, u);
  }

  /** Below shift 30 a level's unit is a power of two, its capacity 32 units, and the level below has the unit as capacity. */
  lemma CapSplit(t: nat)
    requires t < 30 && t % 5 == 0
    ensures Unit(t) == Pow2(t) && Cap(t) == Pow2(t) * 32
    ensures t >= BITS ==> Cap(t - BITS) == Pow2(t)
    ensures t < BITS ==> Pow2(t) == 1
  {
    Pow2Step5(t);
  }

  /** Equal low parts below `u` and equal base-32 digits at `u` give equal low parts below `32*u`. */
  lemma LowCore(a: nat, b: nat, u: nat)
    requires u > 0 && a % u == b % u && (a / u) % 32 == (b / u) % 32
    ensures a % (u * 32) == b % (u * 32)
  {
    ModMul(a, u, 32);
    ModMul(b, u, 32);
  }

  /** Distinct keys below a node's capacity part ways somewhere on the way down. */
  lemma DistinctKeysDiverge(t: nat, a: u32, b: u32)
    requires t % 5 == 0
    requires a < Cap(t) && b < Cap(t) && a != b
    ensures !SamePath(t, a, b)
  {
    if SamePath(t, a, b) {
      SamePathLow(t, a, b);
      DivModUnique(a, Cap(t), 0, a);
      DivModUnique(b, Cap(t), 0, b);
    }
  }

  lemma {:induction false} UnitMonotone(a: nat, b: nat)
    requires a <= b
    ensures Unit(a) <= Unit(b)
  {
    if b < 32 {
      Pow2Monotone(a, b);
    } else if a < 32 {
      Pow2Monotone(a, 32);
      Pow2Thirty();
    }
  }

  lemma NoCarry(x: nat, u: nat)
    requires u > 0 && (x + 1) % u != 0
    ensures (x + 1) / u == x / u
  {
    var q, r := x / u, x % u;
    if r + 1 < u {
      DivModUnique(x + 1, u, q, r + 1);
    } else {
      DivModUnique(x + 1, u, q + 1, 0);
    }
  }

  lemma QuotientNot31(key: u32, s: nat)
    requires s % 5 == 0
    requires key + 1 <= U32_MAX
    requires (key + 1) % Unit(s) == 0
    requires (key + 1) % Cap(s) != 0
    ensures (key / Unit(s)) % 32 != 31
  {
    if s >= 32 {
      assert false;
    } else if s < 30 {
      Not31Below30(key, s);
    } else {
      QuotientSmallAt30(key, s);
    }
  }

  lemma SmallNot31(q: nat)
    requires q < 4
    ensures q % 32 != 31
  {
    DivModUnique(q, 32, 0, q);
  }

  lemma Not31Below30(key: u32, s: nat)
    requires s + BITS < 32
    requires (key + 1) % Unit(s) == 0
    requires (key + 1) % Cap(s) != 0
    ensures (key / Unit(s)) % 32 != 31
  {
    var u := Pow2(s);
    assert Unit(s) == u;
    assert Cap(s) == Pow2(s + 5);
    Pow2Step5(s);
    var c := Cap(s);
    assert c == u * 32;
    Not31Core(key, u);
  }

  lemma Not31Core(x: nat, u: nat)
    requires u > 0 && (x + 1) % u == 0 && (x + 1) % (u * 32) != 0
    ensures (x / u) % 32 != 31
  {
    var q := x / u;
    CarryQuotient(x, u);
    assert x + 1 == ((x + 1) / u) * u + (x + 1) % u;
    if q % 32 == 31 {
      CarryOut(x + 1, u, q);
    }
  }

  lemma QuotientSmallAt30(key: u32, s: nat)
    requires 30 <= s < 32
    ensures key / Unit(s) < 4
    ensures (key / Unit(s)) % 32 != 31
  {
    Pow2Thirty();
    Pow2Monotone(30, s);
    QuotientBelow(key, Unit(s));
    SmallNot31(key / Unit(s));
  }

  lemma MulMono(a: nat, b: nat, u: nat)
    ensures a <= b ==> a * u <= b * u
  {
    assert b * u == a * u + (b - a) * u;
  }

  lemma CarryQuotient(key: nat, u: nat)
    requires u > 0 && (key + 1) % u == 0
    ensures (key + 1) / u == key / u + 1
  {
    var q, r := key / u, key % u;
    assert key == q * u + r;
    if r + 1 < u {
      DivModUnique(key + 1, u, q, r + 1);
    }
    DivModUnique(key + 1, u, q + 1, 0);
  }

  lemma CarryOut(x: nat, u: nat, q: nat)
    requires u > 0 && x == (q + 1) * u && q % 32 == 31
    ensures x % (u * 32) == 0
  {
    var c := q / 32;
    assert q + 1 == (c + 1) * 32;
    assert x == (c + 1) * (u * 32);
    DivModUnique(x, u * 32, c + 1, 0);
  }

  lemma ModSucc(q: nat)
    requires q % 32 != 31
    ensures (q + 1) % 32 == q % 32 + 1
  {
    DivModUnique(q + 1, 32, q / 32, q % 32 + 1);
  }

  /** A key below one unit of shift `t` takes slot 0 at that shift. */
  lemma DigitZeroBelow(key: u32, t: nat)
    requires key < Unit(t)
    ensures Digit(key, t) == 0
  {
    DigitUnit(key, t);
    DivModUnique(key, Unit(t), 0, key);
  }

  /** At a leaf the path digit is the mask. */
  lemma DigitAtLeaf(key: u32)
    ensures Digit(key, 0) == Mask(key)
  {
    assert Pow2(0) == 1;
  }

  // ---------------------------------------------------------------------
  // Low bits of a key: what the append frontier is stated in

  lemma {:induction false} LowPow2(x: nat, s: nat)
    ensures Low(x, s) == x % Pow2(s)
  {
    if s > 0 {
      LowPow2(x / 2, s - 1);
      ModMul(x, 2, Pow2(s - 1));
    }
  }

  /** The low `s + BITS` bits of a key are its digit at shift `s` above its low `s` bits. */
  lemma DigitSplit(x: u32, s: nat)
    requires s % 5 == 0
    ensures x % Cap(s) == Digit(x, s) * Unit(s) + x % Unit(s)
  {
    DigitUnit(x, s);
    if s < 30 {
      CapSplit(s);
      ModMul(x, Pow2(s), 32);
    } else if s == 30 {
      SplitAt30(x);
      DivModUnique(x, Cap(30), 0, x);
    } else {
      DivModUnique(x, Unit(s), 0, x);
    }
  }

  /**
    Keys ordered on their low `s + BITS` bits take ordered slots at shift
    `s`, and keys that take the same slot stay ordered on their low `s` bits.
  */
  lemma LowOrder(k: u32, e: u32, s: nat)
    requires s % 5 == 0 && Low(k, s + BITS) < Low(e, s + BITS)
    ensures Digit(k, s) <= Digit(e, s)
    ensures Digit(k, s) == Digit(e, s) ==> Low(k, s) < Low(e, s)
  {
    LowUnit(k, s + BITS);
    LowUnit(e, s + BITS);
    LowUnit(k, s);
    LowUnit(e, s);
    DigitSplit(k, s);
    DigitSplit(e, s);
    hide Low, Halve, Pow2, Shr, Digit, Unit;
    DigitOrder(Digit(k, s), k % Unit(s), Digit(e, s), e % Unit(s), Unit(s));
  }

  /** Two-digit numbers `d * u + l` with `l < u` compare on `d` first. */
  lemma DigitOrder(dk: nat, lk: nat, de: nat, le: nat, u: nat)
    requires lk < u && le < u && dk * u + lk < de * u + le
    ensures dk <= de && (dk == de ==> lk < le)
  {
    MulMono(de + 1, dk, u);
    assert (de + 1) * u == de * u + u;
  }

  /** For a uint32 key, `Low` is the remainder by `Unit`. */
  lemma LowUnit(key: u32, s: nat)
    ensures Low(key, s) == key % Unit(s)
  {
    LowPow2(key, s);
    if s >= 32 {
      Pow2Thirty();
      Pow2Monotone(32, s);
      DivModUnique(key, Pow2(s), 0, key);
      DivModUnique(key, Unit(s), 0, key);
    }
  }

  /** A positive key below `Unit(s)` has nonzero low bits. */
  /** Key 0 has no low bits set. */
  lemma {:induction false} LowOfZero(s: nat)
    ensures Low(0, s) == 0
  {
    if s > 0 {
      LowOfZero(s - 1);
    }
  }

  lemma LowOfSmall(key: u32, s: nat)
    requires 0 < key < Unit(s)
    ensures Low(key, s) != 0
  {
    LowUnit(key, s);
    DivModUnique(key, Unit(s), 0, key);
  }

  /** A key whose low `t + BITS` bits are zero has digit 0 at shift `t` and zero low `t` bits. */
  lemma LowZeroStep(key: u32, t: nat)
    requires t % 5 == 0 && Low(key, t + BITS) == 0
    ensures Digit(key, t) == 0 && Low(key, t) == 0
  {
    LowUnit(key, t + BITS);
    LowUnit(key, t);
    DigitSplit(key, t);
    MulMono(1, Digit(key, t), Unit(t));
  }

  /** Without a carry out of the low `s` bits, the digit at shift `s` is unchanged by +1. */
  lemma CarryNone(key: u32, s: nat)
    requires key + 1 <= U32_MAX
    requires Low(key + 1, s) != 0
    ensures Digit(key + 1, s) == Digit(key, s)
  {
    LowUnit(key + 1, s);
    DigitUnit(key, s);
    DigitUnit(key + 1, s);
    NoCarry(key, Unit(s));
  }

  /** A carry out of the low `s` bits that stops at shift `s` bumps that digit by one. */
  lemma CarryInto(key: u32, s: nat)
    requires s % 5 == 0
    requires key + 1 <= U32_MAX
    requires Low(key + 1, s) == 0 && Low(key + 1, s + BITS) != 0
    ensures Digit(key + 1, s) == Digit(key, s) + 1
  {
    LowUnit(key + 1, s);
    LowUnit(key + 1, s + BITS);
    var u := Unit(s);
    var q, q1 := key / u, (key + 1) / u;
    CarryQuotient(key, u);
    QuotientNot31(key, s);
    ModSucc(q);
    assert q1 % 32 == q % 32 + 1;
    DigitUnit(key, s);
    DigitUnit(key + 1, s);
  }

  /** After a key with zero low `s` bits (s >= BITS) comes one whose low bits are not zero. */
  lemma NextAfterLowZero(key: u32, s: nat)
    requires s >= BITS && Low(key, s) == 0 && key + 1 <= U32_MAX
    ensures Low(key + 1, s) != 0
  {
    LowUnit(key, s);
    var u := Unit(s);
    if s < 32 {
      Pow2Monotone(BITS, s);
      assert Pow2(BITS) == 32;
    }
    assert u > 1;
    DivModUnique(key + 1, u, key / u, 1);
    LowUnit(key + 1, s);
  }

  /** Without a carry out of the leaf bits, +1 moves to the next leaf slot. */
  lemma MaskSucc(key: u32)
    requires key + 1 <= U32_MAX && Low(key + 1, BITS) != 0
    ensures Mask(key + 1) == Mask(key) + 1
  {
    LowUnit(key + 1, BITS);
    assert Unit(BITS) == 32;
    SuccMod32(key);
  }

  lemma SuccMod32(key: nat)
    requires (key + 1) % 32 != 0
    ensures (key + 1) % 32 == key % 32 + 1
  {
    var q, r := key / 32, key % 32;
    if r == 31 {
      DivModUnique(key + 1, 32, q + 1, 0);
    } else {
      DivModUnique(key + 1, 32, q, r + 1);
    }
  }
}

=== FILE: errors.dfy ===
/** The one error kind of the vector package, and the result of a fallible call. */
module Errors {
  import opened Bits

  /** An access to a key the structure does not hold; carries the offending key. */
  datatype Error = OutOfBounds(key: u32)

  /** Go's `(value, error)` pair: exactly one of the two is meaningful. */
  datatype Result<+T> = Ok(value: T) | Err(error: Error)
}

=== FILE: node.dfy ===
/**
  The trie node engine of the persistent vector (vector/node.go).

  A node is a slice of slots plus a shift. Leaves (shift 0) hold values;
  internal nodes hold child nodes one level (BITS) lower. Go's in-place
  mutation of freshly copied nodes becomes the construction of new values
  here, so the receiver of every operation is unchanged by construction.

  Go panics (a failed `.(*Node)` type assertion, an index out of range, a
  slice bound) are preconditions: `Walkable` for `Get`, `WF` plus
  `Descendable` for `Set`, `RightEdgeFilled` for `Pop`.
*/
module Nodes {
  import opened Bits
  import opened Errors

  /** A slot of `Elements`: a stored value (in a leaf) or a child node. */
  datatype Slot<V> = Value(v: V) | Branch(node: Node<V>)

  datatype Node<V> = Node(elements: seq<Slot<V>>, shift: u32)

  /** Go's uint32 `a + b`. */
  function Add32(a: u32, b: u32): u32
  {
    (a + b) % 0x1_0000_0000
  }

  /** Go's uint32 `a - b`. */
  function Sub32(a: u32, b: u32): u32
  {
    (a - b) % 0x1_0000_0000
  }

  /** A node with no slots at the given shift (what `CopySubKey` creates at the append position). */
  function EmptyAt<V>(shift: u32): Node<V>
  {
    Node([], shift)
  }

  /** Number of slots in use. */
  function Width<V>(n: Node<V>): nat
  {
    |n.elements|
  }

  /**
    Shape invariant: shifts are multiples of BITS, leaves hold values only, and
    every child of a node at shift s is itself well formed at shift s - BITS.
  */
  predicate WF<V>(n: Node<V>)
    decreases n
  {
    && n.shift % 5 == 0
    && (n.shift == 0 ==> forall i :: 0 <= i < |n.elements| ==> n.elements[i].Value?)
    && (n.shift > 0 ==>
          forall i :: 0 <= i < |n.elements| ==>
            && n.elements[i].Branch?
            && n.elements[i].node.shift == n.shift - BITS
            && WF(n.elements[i].node))
  }

  /** Width bound: no node has more than SIZE slots. */
  predicate Narrow<V>(n: Node<V>)
    decreases n
  {
    && |n.elements| <= SIZE
    && forall i :: 0 <= i < |n.elements| ==>
         (n.elements[i].Branch? ==> Narrow(n.elements[i].node))
  }

  /**
    `Get(key)` does not panic: every internal slot on the path exists and is a
    node, and the leaf slot, when present, holds a value.
  */
  predicate Walkable<V>(n: Node<V>, key: u32)
    decreases n
  {
    if n.shift == 0 then
      Mask(key) < |n.elements| ==> n.elements[Mask(key)].Value?
    else
      var d := Digit(key, n.shift);
      d < |n.elements| && n.elements[d].Branch? && Walkable(n.elements[d].node, key)
  }

  /** The leaf `Get(key)` stops at. */
  function Leaf<V>(n: Node<V>, key: u32): (l: Node<V>)
    requires Walkable(n, key)
    ensures l.shift == 0
    decreases n
  {
    if n.shift == 0 then n else Leaf(n.elements[Digit(key, n.shift)].node, key)
  }

  /**
    Find the element at `key`: descend by `(key >> shift) & 31` while the
    shift is positive, then read slot `key & 31` if the leaf is that wide.
  */
  function Get<V>(n: Node<V>, key: u32): (r: Result<V>)
    requires Walkable(n, key)
    ensures r.Err? ==> r.error == OutOfBounds(key)
    ensures r.Ok? <==> Mask(key) < Width(Leaf(n, key))
    ensures r.Ok? ==> Leaf(n, key).elements[Mask(key)] == Value(r.value)
    decreases n
  {
    if n.shift > 0 then
      Get(n.elements[Digit(key, n.shift)].node, key)
    else if Width(n) > Mask(key) then
      Ok(n.elements[Mask(key)].v)
    else
      Err(OutOfBounds(key))
  }

  /** `key` holds a value in `n`. */
  predicate Readable<V>(n: Node<V>, key: u32)
  {
    Walkable(n, key) && Get(n, key).Ok?
  }

  /** Shallow copy: a value is indistinguishable from its copy. */
  function Copy<V>(n: Node<V>): (r: Node<V>)
    ensures r == n
  {
    Node(n.elements, n.shift)
  }

  /**
    The root `Set(key)` starts from. The test `(1 << shift) < (key >> 5)` is
    kept as written; `NewRootWraps` and `NewRootCapacity` say what it decides.
  */
  function NewRoot<V>(n: Node<V>, key: u32): (r: Node<V>)
    ensures r == n || (r.elements == [Branch(n)] && r.shift == Add32(n.shift, BITS))
    ensures WF(n) && n.shift + BITS <= U32_MAX ==> WF(r) && r.shift >= n.shift
  {
    if Shl1(n.shift) < Shr(key, BITS) then
      Copy(n)
    else
      Node([Branch(n)], Add32(n.shift, BITS))
  }

  /**
    The growth test of `NewRoot` is false for every key the root can address
    while the shift is below 32, so such a root is always wrapped in a new
    level; from shift 32 on it wraps exactly for the keys below SIZE.
  */
  lemma NewRootWraps<V>(n: Node<V>, key: u32)
    ensures n.shift < 32 && key <= Cap(n.shift) ==> NewRoot(n, key) != n
    ensures n.shift >= 32 ==> (NewRoot(n, key) == n <==> key >= SIZE)
  {
    NoGrowthTestWithinCapacity(n.shift, key);
    ShrBits(key);
  }

  /** A key up to the capacity of `n` lies strictly inside the capacity of `NewRoot(n, key)`, and so does the next one. */
  lemma NewRootCapacity<V>(n: Node<V>, key: u32)
    requires n.shift + BITS <= U32_MAX && key <= Cap(n.shift)
    ensures key < Cap(NewRoot(n, key).shift)
    ensures key < U32_MAX ==> key + 1 < Cap(NewRoot(n, key).shift)
  {
    NoGrowthTestWithinCapacity(n.shift, key);
    CapacityAfterNewRoot(n.shift, key);
    ShrBits(key);
  }

  /** The shift `NewRoot` leaves for a key within capacity: one level more, except from shift 32 up for keys past the first leaf. */
  lemma NewRootShift<V>(n: Node<V>, key: u32)
    requires n.shift + BITS <= U32_MAX && key <= Cap(n.shift)
    ensures NewRoot(n, key).shift == if n.shift < 32 || key < SIZE then n.shift + BITS else n.shift
  {
    NewRootWraps(n, key);
  }

  /**
    Install a copy of child `key` in `n`, or a fresh empty child one level
    lower when `key` is the append position; return the parent and the child.
  */
  function CopySubKey<V>(n: Node<V>, key: nat): (r: (Node<V>, Node<V>))
    requires key <= Width(n)
    requires key < Width(n) ==> n.elements[key].Branch?
    ensures r.0.shift == n.shift
    ensures Width(r.0) == if key == Width(n) then Width(n) + 1 else Width(n)
    ensures r.0.elements[key] == Branch(r.1)
    ensures forall j :: 0 <= j < Width(n) && j != key ==> r.0.elements[j] == n.elements[j]
    ensures key < Width(n) ==> r.0 == n && r.1 == n.elements[key].node
    ensures key == Width(n) ==> r.1.elements == [] && r.1.shift == Sub32(n.shift, BITS)
  {
    if key == Width(n) then
      var into := Node([], Sub32(n.shift, BITS));
      (Node(n.elements + [Branch(into)], n.shift), into)
    else
      var into := Copy(n.elements[key].node);
      (Node(n.elements[key := Branch(into)], n.shift), into)
  }

  /**
    Write `value` at slot `key` of a leaf: append at the width, overwrite
    below it, refuse (false, leaf untouched) above it.
  */
  function SetSubKey<V>(n: Node<V>, key: nat, value: V): (r: (bool, Node<V>))
    ensures r.1.shift == n.shift
    ensures r.0 <==> key <= Width(n)
    ensures !r.0 ==> r.1 == n
    ensures r.0 ==> Width(r.1) == (if key == Width(n) then Width(n) + 1 else Width(n))
    ensures r.0 ==> r.1.elements[key] == Value(value)
    ensures r.0 ==> forall j :: 0 <= j < Width(n) && j != key ==> r.1.elements[j] == n.elements[j]
  {
    if Width(n) == key then
      (true, Node(n.elements + [Value(value)], n.shift))
    else if Width(n) > key then
      (true, Node(n.elements[key := Value(value)], n.shift))
    else
      (false, n)
  }

  /**
    The descent of `Set` from node `m` does not panic: each internal slot
    index is at most the width, an existing slot holds a node, and an
    append position leads to a fresh empty child that must itself be descended.
  */
  predicate Descendable<V>(m: Node<V>, key: u32)
    requires WF(m)
    decreases m.shift
  {
    if m.shift == 0 then true
    else
      var d := Digit(key, m.shift);
      && d <= Width(m)
      && (d < Width(m) ==> Descendable(m.elements[d].node, key))
      && (d == Width(m) ==> Descendable(EmptyAt<V>(m.shift - BITS), key))
  }

  /** The leaf the descent of `Set` reaches (a fresh empty one past the right edge). */
  function Reach<V>(m: Node<V>, key: u32): (l: Node<V>)
    requires WF(m) && Descendable(m, key)
    ensures l.shift == 0
    decreases m.shift
  {
    if m.shift == 0 then m
    else
      var d := Digit(key, m.shift);
      if d == Width(m) then Reach(EmptyAt<V>(m.shift - BITS), key)
      else Reach(m.elements[d].node, key)
  }

  /**
    The loop of `Set` below the new root: copy each node on the path (or
    create it at the append position) and write the leaf slot.
  */
  function SetPath<V>(m: Node<V>, key: u32, value: V): (r: Result<Node<V>>)
    requires WF(m) && Descendable(m, key)
    ensures r.Err? <==> Mask(key) > Width(Reach(m, key))
    ensures r.Err? ==> r.error == OutOfBounds(key)
    ensures r.Ok? ==> WF(r.value) && r.value.shift == m.shift
    ensures r.Ok? ==> Walkable(r.value, key) && Get(r.value, key) == Ok(value)
    ensures r.Ok? && Narrow(m) ==> Narrow(r.value)
    decreases m.shift
  {
    if m.shift == 0 then
      var (ok, leaf) := SetSubKey(m, Mask(key), value);
      if ok then Ok(leaf) else Err(OutOfBounds(key))
    else
      var d := Digit(key, m.shift);
      DescendStep(m, key);
      var (parent, child) := CopySubKey(m, d);
      match SetPath(child, key, value)
      case Ok(c) =>
        SetPathStep(m, key, value, parent, child, c);
        Ok(Node(parent.elements[d := Branch(c)], parent.shift))
      case Err(e) => Err(e)
  }

  /**
    Set `key` to `value`, returning a new root; OutOfBounds(key) when the leaf
    slot `key & 31` lies beyond the width of the leaf the descent reaches.
  */
  function Set<V>(n: Node<V>, key: u32, value: V): (r: Result<Node<V>>)
    requires WF(n) && n.shift + BITS <= U32_MAX
    requires Descendable(NewRoot(n, key), key)
    ensures r.Err? <==> Mask(key) > Width(Reach(NewRoot(n, key), key))
    ensures r.Err? ==> r.error == OutOfBounds(key)
    ensures r.Ok? ==> WF(r.value) && r.value.shift == NewRoot(n, key).shift >= n.shift
    ensures r.Ok? ==> Walkable(r.value, key) && Get(r.value, key) == Ok(value)
    ensures r.Ok? && Narrow(n) ==> Narrow(r.value)
  {
    var root := NewRoot(n, key);
    assert WF(root) && root.shift >= n.shift;
    SetPath(root, key, value)
  }

  /** Every node on the right edge has at least one slot (so `Pop` does not panic). */
  predicate RightEdgeFilled<V>(n: Node<V>)
    decreases n
  {
    && |n.elements| > 0
    && (n.shift > 0 ==>
          n.elements[|n.elements| - 1].Branch? && RightEdgeFilled(n.elements[|n.elements| - 1].node))
  }

  /** The stored values, left to right. */
  function Contents<V>(n: Node<V>): seq<V>
    decreases n, 1
  {
    Flatten(n, n.elements)
  }

  /** The values under the slots `s`, left to right; `parent` holds every slot of `s`. */
  function Flatten<V>(ghost parent: Node<V>, s: seq<Slot<V>>): seq<V>
    requires forall i :: 0 <= i < |s| ==> s[i] in parent.elements
    decreases parent, 0, s
  {
    if s == [] then []
    else
      (match s[0]
       case Value(v) => [v]
       case Branch(c) => assert s[0] in parent.elements; Contents(c))
      + Flatten(parent, s[1..])
  }

  /**
    `r` is `n` with only the last slot of its right-edge leaf removed: the
    same shift at every level, every slot left of the right edge unchanged.
  */
  ghost predicate PoppedEdge<V>(n: Node<V>, r: Node<V>)
    decreases n
  {
    var w := |n.elements|;
    && w > 0 && r.shift == n.shift
    && if n.shift == 0 then
         r.elements == n.elements[..w - 1]
       else
         && |r.elements| == w
         && r.elements[..w - 1] == n.elements[..w - 1]
         && n.elements[w - 1].Branch? && r.elements[w - 1].Branch?
         && PoppedEdge(n.elements[w - 1].node, r.elements[w - 1].node)
  }

  /** The loop of `Pop` below the copied root: copy the right edge, trim its leaf. */
  function PopPath<V>(m: Node<V>): (r: Node<V>)
    requires WF(m) && RightEdgeFilled(m)
    ensures WF(r) && r.shift == m.shift
    ensures Width(r) == if m.shift == 0 then Width(m) - 1 else Width(m)
    ensures m.shift > 0 ==> r.elements[..Width(m) - 1] == m.elements[..Width(m) - 1]
    ensures |Contents(m)| > 0 && Contents(r) == Contents(m)[..|Contents(m)| - 1]
    ensures Narrow(m) ==> Narrow(r)
    ensures PoppedEdge(m, r)
    decreases m
  {
    var w := Width(m);
    if m.shift == 0 then
      PopLeafStep(m);
      Node(m.elements[..w - 1], m.shift)
    else
      var (parent, child) := CopySubKey(m, w - 1);
      CopiedChild(m, w - 1);
      var popped := PopPath(child);
      PopPathStep(m, child, popped);
      Node(parent.elements[w - 1 := Branch(popped)], parent.shift)
  }

  /** Remove the last element of the rightmost leaf; a node of width 0 is returned as is. */
  function Pop<V>(n: Node<V>): (r: Node<V>)
    requires WF(n) && (Width(n) > 0 ==> RightEdgeFilled(n))
    ensures Width(n) == 0 ==> r == n
    ensures WF(r) && r.shift == n.shift
    ensures Width(n) > 0 ==> |Contents(n)| > 0 && Contents(r) == Contents(n)[..|Contents(n)| - 1]
    ensures Width(n) > 0 && n.shift > 0 ==>
              Width(r) == Width(n) && r.elements[..Width(n) - 1] == n.elements[..Width(n) - 1]
    ensures Width(n) > 0 ==> PoppedEdge(n, r)
    ensures Narrow(n) ==> Narrow(r)
  {
    if Width(n) == 0 then n else PopPath(Copy(n))
  }

  // ---------------------------------------------------------------------
  // Helpers for the contracts above

  /** One level of `SetPath`: installing the updated child keeps the shape and the new value readable. */
  lemma SetPathStep<V>(m: Node<V>, key: u32, value: V, parent: Node<V>, child: Node<V>, c: Node<V>)
    requires WF(m) && m.shift > 0
    requires Digit(key, m.shift) <= Width(m)
    requires Digit(key, m.shift) < Width(m) ==> m.elements[Digit(key, m.shift)].Branch?
    requires (parent, child) == CopySubKey(m, Digit(key, m.shift))
    requires WF(c) && c.shift == m.shift - BITS
    requires Walkable(c, key) && Get(c, key) == Ok(value)
    requires Narrow(child) ==> Narrow(c)
    ensures var r := Node(parent.elements[Digit(key, m.shift) := Branch(c)], parent.shift);
      && WF(r) && Walkable(r, key) && Get(r, key) == Ok(value)
      && (Narrow(m) ==> Narrow(r))
  {
    var d := Digit(key, m.shift);
    var r := Node(parent.elements[d := Branch(c)], parent.shift);
    assert forall i :: 0 <= i < Width(r) && i != d ==> r.elements[i] == m.elements[i];
    assert r.elements[d] == Branch(c);
    if Narrow(m) {
      assert Narrow(child) by {
        if d < Width(m) {
          assert m.elements[d].Branch?;
        }
      }
      assert Width(r) <= SIZE;
    }
  }

  /** One level of the descent of `Set`: the child `CopySubKey` hands down is where the rest of it happens. */
  lemma DescendStep<V>(m: Node<V>, key: u32)
    requires WF(m) && m.shift > 0 && Descendable(m, key)
    ensures Digit(key, m.shift) <= Width(m)
    ensures Digit(key, m.shift) < Width(m) ==> m.elements[Digit(key, m.shift)].Branch?
    ensures var c := CopySubKey(m, Digit(key, m.shift)).1;
      && WF(c) && c.shift == m.shift - BITS
      && Descendable(c, key) && Reach(c, key) == Reach(m, key)
  {
    hide Halve, Pow2, Shr, Digit, Mask, Walkable, Get, Leaf, Set, SetPath, NewRoot, Narrow, CopySubKey;
    CopiedChild(m, Digit(key, m.shift));
  }

  /** The child `CopySubKey(d)` hands down: slot `d`'s node, or an empty node one level lower at the right edge. */
  lemma CopiedChild<V>(m: Node<V>, d: nat)
    requires WF(m) && m.shift > 0 && d <= Width(m)
    requires d < Width(m) ==> m.elements[d].Branch?
    ensures CopySubKey(m, d).1 == if d == Width(m) then EmptyAt<V>(m.shift - BITS) else m.elements[d].node
  {
    if d == Width(m) {
      assert m.shift >= BITS && Sub32(m.shift, BITS) == m.shift - BITS;
    }
  }

  /** The leaf case of `PopPath`. */
  lemma PopLeafStep<V>(m: Node<V>)
    requires WF(m) && m.shift == 0 && |m.elements| > 0
    ensures var r := Node(m.elements[..|m.elements| - 1], m.shift);
      |Contents(m)| > 0 && Contents(r) == Contents(m)[..|Contents(m)| - 1]
  {
    var w := |m.elements|;
    var r := Node(m.elements[..w - 1], m.shift);
    assert m.elements == m.elements[..w - 1] + [m.elements[w - 1]];
    FlattenAppend(m, m.elements[..w - 1], [m.elements[w - 1]]);
    FlattenSingle(m, m.elements[w - 1]);
    FlattenParent(m, r, r.elements);
  }

  /** The internal case of `PopPath`: shape is kept and only the last slot changes. */
  lemma PopPathStep<V>(m: Node<V>, child: Node<V>, popped: Node<V>)
    requires WF(m) && m.shift > 0 && |m.elements| > 0
    requires m.elements[|m.elements| - 1] == Branch(child)
    requires WF(popped) && popped.shift == child.shift
    requires |Contents(child)| > 0 && Contents(popped) == Contents(child)[..|Contents(child)| - 1]
    requires Narrow(child) ==> Narrow(popped)
    ensures var r := Node(m.elements[|m.elements| - 1 := Branch(popped)], m.shift);
      && WF(r) && Width(r) == Width(m)
      && r.elements[..Width(m) - 1] == m.elements[..Width(m) - 1]
      && |Contents(m)| > 0 && Contents(r) == Contents(m)[..|Contents(m)| - 1]
      && (Narrow(m) ==> Narrow(r))
  {
    var w := |m.elements|;
    var r := Node(m.elements[w - 1 := Branch(popped)], m.shift);
    assert forall i :: 0 <= i < w - 1 ==> r.elements[i] == m.elements[i];
    assert r.elements[w - 1] == Branch(popped);
    PopPathContents(m, child, popped);
  }

  lemma PopPathContents<V>(m: Node<V>, child: Node<V>, popped: Node<V>)
    requires |m.elements| > 0
    requires m.elements[|m.elements| - 1] == Branch(child)
    requires |Contents(child)| > 0 && Contents(popped) == Contents(child)[..|Contents(child)| - 1]
    ensures var r := Node(m.elements[|m.elements| - 1 := Branch(popped)], m.shift);
      |Contents(m)| > 0 && Contents(r) == Contents(m)[..|Contents(m)| - 1]
  {
    hide Flatten, Halve, Pow2, Walkable, Get, Leaf, Set, SetPath, NewRoot, Descendable, Reach;
    var w := |m.elements|;
    var r := Node(m.elements[w - 1 := Branch(popped)], m.shift);
    var pre := m.elements[..w - 1];
    assert m.elements == pre + [Branch(child)];
    assert r.elements == pre + [Branch(popped)];
    FlattenAppend(m, pre, [Branch(child)]);
    FlattenAppend(r, pre, [Branch(popped)]);
    FlattenSingle(m, Branch(child));
    FlattenSingle(r, Branch(popped));
    FlattenParent(m, r, pre);
    assert Contents(m) == Flatten(m, pre) + Contents(child);
    assert Contents(r) == Flatten(m, pre) + Contents(popped);
  }

  lemma FlattenSingle<V>(parent: Node<V>, x: Slot<V>)
    requires x in parent.elements
    ensures Flatten(parent, [x]) == match x case Value(v) => [v] case Branch(c) => Contents(c)
  {
    assert [x][1..] == [];
  }

  lemma {:induction false} FlattenAppend<V>(parent: Node<V>, a: seq<Slot<V>>, b: seq<Slot<V>>)
    requires forall i :: 0 <= i < |a| ==> a[i] in parent.elements
    requires forall i :: 0 <= i < |b| ==> b[i] in parent.elements
    ensures Flatten(parent, a + b) == Flatten(parent, a) + Flatten(parent, b)
    decreases a
  {
    hide Contents, Halve, Pow2, Walkable, Get, Leaf, Set, SetPath, NewRoot, Descendable, Reach;
    if a == [] {
      assert a + b == b;
    } else {
      assert (a + b)[1..] == a[1..] + b;
      FlattenAppend(parent, a[1..], b);
    }
  }

  /** The parent only witnesses termination; it does not change the result. */
  lemma {:induction false} FlattenParent<V>(p: Node<V>, q: Node<V>, s: seq<Slot<V>>)
    requires forall i :: 0 <= i < |s| ==> s[i] in p.elements
    requires forall i :: 0 <= i < |s| ==> s[i] in q.elements
    ensures Flatten(p, s) == Flatten(q, s)
    decreases s
  {
    if s != [] {
      FlattenParent(p, q, s[1..]);
    }
  }

  /** Within capacity the growth test of NewRoot is false while the shift is below 32. */
  lemma NoGrowthTestWithinCapacity(s: u32, key: u32)
    ensures s < 32 && key <= Cap(s) ==> !(Shl1(s) < Shr(key, BITS))
  {
    if s < 32 && key <= Cap(s) {
      NoGrowthTest(s, key);
    }
  }

  lemma NoGrowthTest(s: u32, key: u32)
    requires s < 32 && key <= Cap(s)
    ensures !(Shl1(s) < Shr(key, BITS))
  {
    ShrBits(key);
    Pow2Step5(s);
    if s + BITS >= 32 {
      Pow2Monotone(32, s + BITS);
      Pow2Thirty();
    }
    assert Cap(s) <= Pow2(s) * 32;
    DivModUnique(Pow2(s) * 32, 32, Pow2(s), 0);
  }

  /** A key up to the old capacity is strictly inside the capacity of the new root. */
  lemma CapacityAfterNewRoot(s: u32, key: u32)
    ensures s + BITS <= U32_MAX && key <= Cap(s) ==> key < Cap(Add32(s, BITS)) && key < Cap(s + BITS)
    ensures s + BITS <= U32_MAX && key <= Cap(s) && key < U32_MAX ==> key + 1 < Cap(Add32(s, BITS))
  {
    if s + BITS <= U32_MAX && key <= Cap(s) {
      CapacityGrows(s, key);
    }
  }

  lemma CapacityGrows(s: u32, key: u32)
    requires s + BITS <= U32_MAX && key <= Cap(s)
    ensures key < Cap(Add32(s, BITS))
    ensures key < Cap(s + BITS)
    ensures key < U32_MAX ==> key + 1 < Cap(Add32(s, BITS))
  {
    assert Add32(s, BITS) == s + BITS;
    if s + 2 * BITS < 32 {
      Pow2Step5(s + BITS);
    }
  }
}

=== FILE: node_lemmas.dfy ===
/**
  Properties of the node engine that relate several calls: a `Set` leaves
  every other key alone, `NewRoot` keeps every addressable key, a readable
  key can always be overwritten, and the right edge of a trie that was
  filled by appends always accepts the next append.
*/
module NodeLemmas {
  import opened Bits
  import opened Errors
  import opened Nodes

  // ---------------------------------------------------------------------
  // Non-interference

  /** Writing `key` below `m` does not disturb a key whose path leaves the path of `key`. */
  lemma {:induction false} SetPathFrame<V>(m: Node<V>, key: u32, value: V, k: u32)
    requires WF(m) && Descendable(m, key) && SetPath(m, key, value).Ok?
    requires Walkable(m, k) && !SamePath(m.shift, k, key)
    ensures Walkable(SetPath(m, key, value).value, k)
    ensures Get(SetPath(m, key, value).value, k) == Get(m, k)
    decreases m.shift
  {
    if m.shift == 0 {
      SetLeafFrame(m, key, value, k);
    } else {
      SetPathUnfold(m, key, value);
      var d := Digit(key, m.shift);
      var child := CopySubKey(m, d).1;
      var r := SetPath(m, key, value).value;
      if Digit(k, m.shift) == d {
        assert child == m.elements[d].node;
        SetPathFrame(child, key, value, k);
        SlotDescend(r, k, SetPath(child, key, value).value);
      } else {
        SlotKept(m, r, k);
      }
    }
  }

  /** At a leaf, writing slot `key & 31` leaves any other slot as it was. */
  lemma SetLeafFrame<V>(m: Node<V>, key: u32, value: V, k: u32)
    requires WF(m) && m.shift == 0 && SetPath(m, key, value).Ok?
    requires Walkable(m, k) && !SamePath(0, k, key)
    ensures Walkable(SetPath(m, key, value).value, k)
    ensures Get(SetPath(m, key, value).value, k) == Get(m, k)
  {
    DigitAtLeaf(k);
    DigitAtLeaf(key);
  }

  /** An internal node reads `k` as the child in the slot of `k` does. */
  lemma SlotDescend<V>(r: Node<V>, k: u32, c: Node<V>)
    requires r.shift > 0 && Digit(k, r.shift) < Width(r)
    requires r.elements[Digit(k, r.shift)] == Branch(c) && Walkable(c, k)
    ensures Walkable(r, k) && Get(r, k) == Get(c, k)
  {
  }

  /** Two internal nodes at the same shift with the same slot for `k` read `k` alike. */
  lemma SlotKept<V>(m: Node<V>, r: Node<V>, k: u32)
    requires m.shift == r.shift > 0 && Walkable(m, k)
    requires Digit(k, m.shift) < Width(r) && r.elements[Digit(k, m.shift)] == m.elements[Digit(k, m.shift)]
    ensures Walkable(r, k) && Get(r, k) == Get(m, k)
  {
  }

  /** The new root of `Set` still holds every key the old root could address. */
  lemma NewRootFrame<V>(n: Node<V>, key: u32, k: u32)
    requires WF(n) && n.shift + BITS <= U32_MAX
    requires Walkable(n, k) && k < Cap(n.shift)
    ensures Walkable(NewRoot(n, key), k) && Get(NewRoot(n, key), k) == Get(n, k)
  {
    var r := NewRoot(n, key);
    if r != n {
      assert r.shift == n.shift + BITS;
      DigitZeroBelow(k, r.shift);
    }
  }

  /** `Set(key)` on a root changes no other key the root can address. */
  lemma SetFrame<V>(n: Node<V>, key: u32, value: V, k: u32)
    requires WF(n) && n.shift + BITS <= U32_MAX
    requires Descendable(NewRoot(n, key), key) && Set(n, key, value).Ok?
    requires key <= Cap(n.shift) && k < Cap(n.shift) && k != key
    requires Walkable(n, k)
    ensures Walkable(Set(n, key, value).value, k)
    ensures Get(Set(n, key, value).value, k) == Get(n, k)
  {
    hide Halve, Pow2, Shr, Walkable, Get, Leaf, SetPath, Descendable, Reach, Low, NewRoot;
    var root := NewRoot(n, key);
    NewRootFrame(n, key, k);
    NewRootCapacity(n, key);
    UnitMonotone(n.shift + BITS, root.shift + BITS);
    DistinctKeysDiverge(root.shift, k, key);
    SetPathFrame(root, key, value, k);
  }

  /** After `Set(key)`, `key` reads the new value and every other readable key below the capacity reads as before. */
  lemma SetReads<V>(n: Node<V>, key: u32, value: V)
    requires WF(n) && n.shift + BITS <= U32_MAX
    requires Descendable(NewRoot(n, key), key) && Set(n, key, value).Ok?
    requires key <= Cap(n.shift)
    ensures Readable(Set(n, key, value).value, key) && Get(Set(n, key, value).value, key) == Ok(value)
    ensures forall k: u32 :: k < Cap(n.shift) && k != key && Readable(n, k) ==>
      Readable(Set(n, key, value).value, k) && Get(Set(n, key, value).value, k) == Get(n, k)
  {
    forall k: u32 | k < Cap(n.shift) && k != key && Readable(n, k)
      ensures Readable(Set(n, key, value).value, k) && Get(Set(n, key, value).value, k) == Get(n, k)
    {
      SetFrame(n, key, value, k);
    }
  }

  /** A successful `Set(key)` keeps the root well-formed and narrow, keeps its capacity, and can address `key + 1`. */
  lemma WriteShape<V>(n: Node<V>, key: u32, value: V)
    requires WF(n) && n.shift + BITS <= U32_MAX && key <= Cap(n.shift)
    requires Descendable(NewRoot(n, key), key) && Set(n, key, value).Ok?
    ensures WF(Set(n, key, value).value)
    ensures Narrow(n) ==> Narrow(Set(n, key, value).value)
    ensures Cap(n.shift) <= Cap(Set(n, key, value).value.shift)
    ensures key < U32_MAX ==> key + 1 < Cap(Set(n, key, value).value.shift)
  {
    hide Halve, Pow2, Shr, Walkable, Get, Leaf, SetPath, Descendable, Reach, NewRoot, Set;
    var r := Set(n, key, value).value;
    NewRootCapacity(n, key);
    UnitMonotone(n.shift + BITS, r.shift + BITS);
  }

  /**
    What a successful `Set(key, value)` on `n` produced in `nr`: a
    well-formed root, narrow when `n` is, that addresses every key `n` could
    and also `key + 1`, reads `value` at `key`, and reads every other key `n`
    holds as `n` does.
  */
  ghost predicate Overwrites<V>(n: Node<V>, key: u32, value: V, nr: Node<V>)
  {
    && WF(nr) && (Narrow(n) ==> Narrow(nr))
    && Cap(n.shift) <= Cap(nr.shift) && (key < U32_MAX ==> key + 1 < Cap(nr.shift))
    && Readable(nr, key) && Get(nr, key) == Ok(value)
    && forall k: u32 {:trigger Get(nr, k)} :: k < Cap(n.shift) && k != key && Readable(n, k) ==>
         Readable(nr, k) && Get(nr, k) == Get(n, k)
  }

  /** The frame part of `Overwrites`, for one key. */
  lemma OverwritesOther<V>(n: Node<V>, key: u32, value: V, nr: Node<V>, k: u32)
    requires Overwrites(n, key, value, nr)
    requires k < Cap(n.shift) && k != key && Readable(n, k)
    ensures Readable(nr, k) && Get(nr, k) == Get(n, k)
  {
    hide Set, NewRoot, SetPath, Descendable, Halve, Pow2, Walkable, Get, Leaf, Reach, Readable;
  }

  /** A successful `Set` overwrites exactly its key. */
  lemma SetOverwrites<V>(n: Node<V>, key: u32, value: V)
    requires WF(n) && n.shift + BITS <= U32_MAX && key <= Cap(n.shift)
    requires Descendable(NewRoot(n, key), key) && Set(n, key, value).Ok?
    ensures Overwrites(n, key, value, Set(n, key, value).value)
  {
    WriteShape(n, key, value);
    SetReads(n, key, value);
  }

  // ---------------------------------------------------------------------
  // Overwriting a readable key

  /** Along the path of a readable key, the descent of `Set` reuses existing nodes only. */
  lemma {:induction false} ReadableDescend<V>(m: Node<V>, k: u32)
    requires WF(m) && Readable(m, k)
    ensures Descendable(m, k) && Reach(m, k) == Leaf(m, k)
    decreases m.shift
  {
    if m.shift > 0 {
      ReadableDescend(m.elements[Digit(k, m.shift)].node, k);
    }
  }

  /** A key the root holds can always be overwritten: `Set` neither panics nor fails. */
  lemma ReadableSetOk<V>(n: Node<V>, k: u32, value: V)
    requires WF(n) && n.shift + BITS <= U32_MAX
    requires Readable(n, k) && k < Cap(n.shift)
    ensures Descendable(NewRoot(n, k), k) && Set(n, k, value).Ok?
  {
    NewRootFrame(n, k, k);
    ReadableDescend(NewRoot(n, k), k);
  }

  // ---------------------------------------------------------------------
  // The append frontier

  /**
    `key` is the next free position on the right edge below `m`: at each level
    either the slot of `key` is the last slot and holds a node that is itself at
    the frontier, or it is one past the last slot and `key` starts a fresh
    subtree there. At the leaf, the width is exactly the slot of `key`.
  */
  predicate Frontier<V>(m: Node<V>, key: u32)
    decreases m
  {
    if m.shift == 0 then
      Width(m) == Mask(key)
    else
      var d := Digit(key, m.shift);
      || (Width(m) == d + 1 && m.elements[d].Branch? && Frontier(m.elements[d].node, key))
      || (Width(m) == d && Low(key, m.shift) == 0)
  }

  /** A fresh empty subtree is at the frontier for a key that starts its range. */
  lemma FrontierEmpty<V>(t: u32, key: u32)
    requires t % 5 == 0 && Low(key, t + BITS) == 0
    ensures Frontier(EmptyAt<V>(t), key)
  {
    if t == 0 {
      LowUnit(key, BITS);
      assert Pow2(5) == 32;
    } else {
      LowZeroStep(key, t);
    }
  }

  /** At the frontier `Set` does not panic and reaches a leaf exactly as wide as the slot it writes. */
  lemma {:induction false} FrontierReach<V>(m: Node<V>, key: u32)
    requires WF(m) && Frontier(m, key)
    ensures Descendable(m, key) && Width(Reach(m, key)) == Mask(key)
    decreases m.shift
  {
    if m.shift > 0 {
      var d := Digit(key, m.shift);
      if d < Width(m) {
        FrontierReach(m.elements[d].node, key);
      } else {
        FrontierEmpty<V>(m.shift - BITS, key);
        FrontierReach(EmptyAt<V>(m.shift - BITS), key);
      }
    }
  }

  /** Appending at the frontier succeeds and leaves the next key at the frontier, unless the subtree is full. */
  lemma {:induction false} FrontierAdvance<V>(m: Node<V>, key: u32, value: V)
    requires WF(m) && Frontier(m, key)
    requires key < U32_MAX && Low(key + 1, m.shift + BITS) != 0
    ensures Descendable(m, key) && SetPath(m, key, value).Ok?
    ensures Frontier(SetPath(m, key, value).value, key + 1)
    decreases m.shift
  {
    FrontierReach(m, key);
    if m.shift == 0 {
      MaskSucc(key);
      var r := SetPath(m, key, value).value;
      assert Width(r) == Mask(key) + 1;
    } else {
      FrontierAdvanceStep(m, key, value);
    }
  }

  /**
    An append at the frontier of the root `Set` starts from succeeds, and the
    next key is at the frontier of the root the following `Set` starts from.
  */
  lemma AppendFrontier<V>(n: Node<V>, key: u32, value: V)
    requires WF(n) && n.shift + BITS <= U32_MAX
    requires key < U32_MAX && key <= Cap(n.shift) && Frontier(NewRoot(n, key), key)
    ensures Descendable(NewRoot(n, key), key) && Set(n, key, value).Ok?
    ensures var r := Set(n, key, value).value;
      r.shift + BITS <= U32_MAX && key + 1 < U32_MAX ==> Frontier(NewRoot(r, key + 1), key + 1)
  {
    hide Halve, Pow2, Shr, Walkable, Get, Leaf, Descendable, Reach, Low, Frontier, NewRoot;
    var m := NewRoot(n, key);
    NewRootCapacity(n, key);
    AppendAdvance(m, key, value);
    var r := Set(n, key, value).value;
    assert r == SetPath(m, key, value).value;
    if r.shift + BITS <= U32_MAX && key + 1 < U32_MAX {
      FrontierNewRoot(r, key + 1);
    }
  }

  /** `FrontierAdvance` for a key whose successor the subtree still addresses. */
  lemma AppendAdvance<V>(m: Node<V>, key: u32, value: V)
    requires WF(m) && Frontier(m, key) && key < U32_MAX && key + 1 < Cap(m.shift)
    ensures Descendable(m, key) && SetPath(m, key, value).Ok?
    ensures Frontier(SetPath(m, key, value).value, key + 1)
  {
    LowOfSmall(key + 1, m.shift + BITS);
    FrontierAdvance(m, key, value);
  }

  lemma FrontierAdvanceStep<V>(m: Node<V>, key: u32, value: V)
    requires WF(m) && m.shift > 0 && Frontier(m, key)
    requires key < U32_MAX && Low(key + 1, m.shift + BITS) != 0
    requires Descendable(m, key) && SetPath(m, key, value).Ok?
    ensures Frontier(SetPath(m, key, value).value, key + 1)
    decreases m.shift, 1
  {
    if Digit(key, m.shift) < Width(m) && Low(key + 1, m.shift) == 0 {
      FrontierCarry(m, key, value);
    } else {
      FrontierNoCarry(m, key, value);
    }
  }

  /** The write fills the last slot of the subtree of `key`: `key + 1` starts a fresh subtree one slot further. */
  lemma FrontierCarry<V>(m: Node<V>, key: u32, value: V)
    requires WF(m) && m.shift > 0 && Frontier(m, key)
    requires key < U32_MAX && Low(key + 1, m.shift + BITS) != 0
    requires Descendable(m, key) && SetPath(m, key, value).Ok?
    requires Digit(key, m.shift) < Width(m) && Low(key + 1, m.shift) == 0
    ensures Frontier(SetPath(m, key, value).value, key + 1)
  {
    hide Halve, Pow2, Shr, Walkable, Get, Leaf, Set, NewRoot, Descendable, Reach;
    SetPathUnfold(m, key, value);
    var r := SetPath(m, key, value).value;
    assert Width(r) == Digit(key, m.shift) + 1;
    CarryInto(key, m.shift);
    FrontierFull(r, key + 1);
  }

  /** `key + 1` stays in the subtree of `key`, which advances by induction. */
  lemma FrontierNoCarry<V>(m: Node<V>, key: u32, value: V)
    requires WF(m) && m.shift > 0 && Frontier(m, key)
    requires key < U32_MAX && Low(key + 1, m.shift + BITS) != 0
    requires Descendable(m, key) && SetPath(m, key, value).Ok?
    requires !(Digit(key, m.shift) < Width(m) && Low(key + 1, m.shift) == 0)
    ensures Frontier(SetPath(m, key, value).value, key + 1)
    decreases m.shift, 0
  {
    hide Halve, Pow2, Shr, Mask, Low, Walkable, Get, Leaf, Set, NewRoot, SetPath, Descendable, Reach, Readable;
    var d := Digit(key, m.shift);
    var child := CopySubKey(m, d).1;
    SetPathUnfold(m, key, value);
    NoCarryChild(m, key);
    FrontierAdvance(child, key, value);
    FrontierUp(SetPath(m, key, value).value, key + 1, SetPath(child, key, value).value);
  }

  /**
    Without a carry out of the child's range, the slot of `key` is the last
    slot of the parent `CopySubKey` returns, `key + 1` takes the same slot,
    and the child is at the frontier with room for `key + 1`.
  */
  lemma NoCarryChild<V>(m: Node<V>, key: u32)
    requires WF(m) && m.shift > 0 && Frontier(m, key) && key < U32_MAX
    requires !(Digit(key, m.shift) < Width(m) && Low(key + 1, m.shift) == 0)
    ensures var d := Digit(key, m.shift);
      var (parent, child) := CopySubKey(m, d);
      && WF(child) && Frontier(child, key) && Low(key + 1, child.shift + BITS) != 0
      && Width(parent) == d + 1 && Digit(key + 1, m.shift) == d
  {
    var s := m.shift;
    FrontierChild(m, key);
    if Digit(key, s) == Width(m) {
      NextAfterLowZero(key, s);
    }
    CarryNone(key, s);
  }

  /** The child `Set` descends into from a frontier node is itself at the frontier, one level lower. */
  lemma FrontierChild<V>(m: Node<V>, key: u32)
    requires WF(m) && m.shift > 0 && Frontier(m, key)
    ensures var d := Digit(key, m.shift);
      var child := CopySubKey(m, d).1;
      && WF(child) && child.shift + BITS == m.shift && Frontier(child, key)
      && (d == Width(m) ==> Low(key, m.shift) == 0)
  {
    var d := Digit(key, m.shift);
    CopiedChild(m, d);
    hide CopySubKey, Halve, Pow2, Shr, Digit, Walkable, Get, Leaf, Readable, Set, NewRoot, SetPath, Descendable, Reach;
    if d == Width(m) {
      FrontierEmpty<V>(m.shift - BITS, key);
    }
  }

  /** One level of `SetPath` below an internal node: the child write succeeds and is installed at the digit. */
  lemma SetPathUnfold<V>(m: Node<V>, key: u32, value: V)
    requires WF(m) && m.shift > 0 && Descendable(m, key) && SetPath(m, key, value).Ok?
    ensures var d := Digit(key, m.shift);
      var (parent, child) := CopySubKey(m, d);
      && WF(child) && Descendable(child, key) && SetPath(child, key, value).Ok?
      && SetPath(m, key, value).value == Node(parent.elements[d := Branch(SetPath(child, key, value).value)], m.shift)
  {
  }

  /** A node whose last slot is the slot of `key` and holds a frontier child is at the frontier. */
  lemma FrontierUp<V>(r: Node<V>, key: u32, c: Node<V>)
    requires r.shift > 0 && Width(r) == Digit(key, r.shift) + 1
    requires r.elements[Digit(key, r.shift)] == Branch(c) && Frontier(c, key)
    ensures Frontier(r, key)
  {
  }

  /** A node that is full up to the slot of `key`, where `key` starts a fresh subtree, is at the frontier. */
  lemma FrontierFull<V>(r: Node<V>, key: u32)
    requires r.shift > 0 && Width(r) == Digit(key, r.shift) && Low(key, r.shift) == 0
    ensures Frontier(r, key)
  {
  }

  /** The new root `Set` builds keeps the frontier. */
  lemma FrontierNewRoot<V>(n: Node<V>, key: u32)
    requires WF(n) && n.shift + BITS <= U32_MAX
    requires Frontier(n, key) && key < Cap(n.shift)
    ensures Frontier(NewRoot(n, key), key)
  {
    var r := NewRoot(n, key);
    if r != n {
      assert r.elements == [Branch(n)] && r.shift == n.shift + BITS;
      DigitZeroBelow(key, n.shift + BITS);
      FrontierWrap(n, key, n.shift + BITS);
    }
  }

  /** Wrapping a frontier node as the only child of a new root keeps the frontier, when the key takes slot 0. */
  lemma FrontierWrap<V>(n: Node<V>, key: u32, t: u32)
    requires t > 0 && Digit(key, t) == 0 && Frontier(n, key)
    ensures Frontier(Node([Branch(n)], t), key)
  {
    var r := Node([Branch(n)], t);
    assert Width(r) == 1 && r.elements[0].node == n;
  }

  /** A key at the frontier is not stored: its leaf slot is one past the end, or its subtree does not exist yet. */
  lemma {:induction false} FrontierUnread<V>(m: Node<V>, key: u32)
    requires WF(m) && Frontier(m, key)
    ensures !Readable(m, key)
    decreases m.shift
  {
    if m.shift > 0 {
      var d := Digit(key, m.shift);
      if d < Width(m) {
        FrontierUnread(m.elements[d].node, key);
      }
    }
  }

  // ---------------------------------------------------------------------
  // Writes below the frontier keep it

  /**
    Writing a key below `e` (on the low `shift + BITS` bits both keys share
    inside this subtree) keeps `e` at the frontier: where the two paths
    share a node the slot of `e` is already its last, so the write only
    copies nodes and fills slots to the left of the path of `e`.
  */
  lemma {:induction false} FrontierWriteBelow<V>(m: Node<V>, k: u32, value: V, e: u32)
    requires WF(m) && Frontier(m, e)
    requires Low(k, m.shift + BITS) < Low(e, m.shift + BITS)
    requires Descendable(m, k) && SetPath(m, k, value).Ok?
    ensures Frontier(SetPath(m, k, value).value, e)
    decreases m.shift
  {
    LowOrder(k, e, m.shift);
    if m.shift == 0 {
      DigitAtLeaf(k);
      DigitAtLeaf(e);
    } else {
      hide Halve, Pow2, Shr, Digit, Low, Walkable, Get, Leaf, Readable, Set, NewRoot, SetPath, Descendable, Reach;
      var d := Digit(k, m.shift);
      var de := Digit(e, m.shift);
      SetPathUnfold(m, k, value);
      var r := SetPath(m, k, value).value;
      if Width(m) == de + 1 && m.elements[de].Branch? && Frontier(m.elements[de].node, e) {
        if d == de {
          var child := m.elements[d].node;
          assert CopySubKey(m, d).1 == child;
          FrontierWriteBelow(child, k, value, e);
          FrontierUp(r, e, SetPath(child, k, value).value);
        } else {
          assert r.elements[de] == m.elements[de];
        }
      } else {
        FrontierFull(r, e);
      }
    }
  }

  /**
    For two keys the root can address, the new roots `Set` starts from agree
    on the frontier: below shift 32 both wrap the root, and from shift 32 on
    a wrapped root sends every key to slot 0, so wrapping or not makes no
    difference. The second key also lies strictly inside the capacity of the
    first key's new root.
  */
  lemma NewRootFrontier<V>(n: Node<V>, k: u32, e: u32)
    requires WF(n) && n.shift + BITS <= U32_MAX
    requires k <= Cap(n.shift) && e <= Cap(n.shift)
    requires Frontier(NewRoot(n, e), e)
    ensures Frontier(NewRoot(n, k), e)
    ensures e < Cap(NewRoot(n, k).shift)
  {
    hide Halve, Pow2, Walkable, Get, Leaf, Set, SetPath, Descendable, Reach, Low;
    NewRootWraps(n, k);
    NewRootWraps(n, e);
    CapacityAfterNewRoot(n.shift, e);
    var m1, m2 := NewRoot(n, k), NewRoot(n, e);
    if n.shift >= 32 && m1 != m2 {
      var w := Node([Branch(n)], n.shift + BITS);
      assert Digit(e, w.shift) == 0;
      assert m1 == w || m2 == w;
      assert Frontier(w, e) <==> Frontier(n, e);
    }
  }

  /**
    A successful write of a key below `e` keeps the append frontier: when
    `e` was at the frontier of the root `Set(e)` would start from, it is
    still at the frontier of the root the next `Set(e)` starts from.
  */
  lemma WriteBelowKeepsFrontier<V>(n: Node<V>, k: u32, value: V, e: u32)
    requires WF(n) && n.shift + BITS <= U32_MAX
    requires k < e <= Cap(n.shift) && Frontier(NewRoot(n, e), e)
    requires Descendable(NewRoot(n, k), k) && Set(n, k, value).Ok?
    ensures var r := Set(n, k, value).value;
      r.shift + BITS <= U32_MAX ==> Frontier(NewRoot(r, e), e)
  {
    hide Halve, Pow2, Shr, Walkable, Get, Leaf, Descendable, Reach, Frontier, NewRoot;
    var m := NewRoot(n, k);
    NewRootFrontier(n, k, e);
    LowUnit(k, m.shift + BITS);
    LowUnit(e, m.shift + BITS);
    DivModUnique(k, Cap(m.shift), 0, k);
    DivModUnique(e, Cap(m.shift), 0, e);
    FrontierWriteBelow(m, k, value, e);
    var r := Set(n, k, value).value;
    assert r == SetPath(m, k, value).value;
    if r.shift + BITS <= U32_MAX {
      FrontierNewRoot(r, e);
    }
  }

  // ---------------------------------------------------------------------
  // Writes at key 0 and at the key after a stored one

  /**
    Below a key whose low bits are all zero the descent of `Set` takes slot 0
    (or appends it) at every level, so it never panics and reaches a leaf
    that can take the key.
  */
  lemma {:induction false} ZeroDescend<V>(c: Node<V>, e: u32)
    requires WF(c) && Low(e, c.shift + BITS) == 0
    ensures Descendable(c, e) && Mask(e) <= Width(Reach(c, e))
    decreases c.shift
  {
    if c.shift == 0 {
      LowUnit(e, BITS);
      assert Unit(BITS) == 32 by { assert Pow2(5) == 32; }
    } else {
      LowZeroStep(e, c.shift);
      if Width(c) == 0 {
        ZeroDescend(EmptyAt<V>(c.shift - BITS), e);
      } else {
        ZeroDescend(c.elements[0].node, e);
      }
    }
  }

  /**
    When `k` holds a value below `m`, the descent of `Set(k + 1)` follows the
    path of `k` until the digits differ, then moves one slot right (or appends
    it) and takes slot 0 from there on: it never panics and the leaf slot is
    at most one past the leaf's width.
  */
  lemma {:induction false} SuccDescend<V>(m: Node<V>, k: u32)
    requires WF(m) && Readable(m, k) && k + 1 <= U32_MAX && Low(k + 1, m.shift + BITS) != 0
    ensures Descendable(m, k + 1) && Mask(k + 1) <= Width(Reach(m, k + 1))
    decreases m.shift
  {
    if m.shift == 0 {
      MaskSucc(k);
    } else {
      var s := m.shift;
      var d := Digit(k, s);
      if Low(k + 1, s) != 0 {
        CarryNone(k, s);
        SuccDescend(m.elements[d].node, k);
      } else {
        CarryInto(k, s);
        if d + 1 == Width(m) {
          ZeroDescend(EmptyAt<V>(s - BITS), k + 1);
        } else {
          ZeroDescend(m.elements[d + 1].node, k + 1);
        }
      }
    }
  }

  /**
    The key after one the root holds can always be written, while it is
    within the root's capacity: no panic and no `OutOfBounds`.
  */
  lemma SuccSetOk<V>(n: Node<V>, k: u32, value: V)
    requires WF(n) && n.shift + BITS <= U32_MAX
    requires Readable(n, k) && k + 1 <= U32_MAX && k + 1 <= Cap(n.shift)
    ensures Descendable(NewRoot(n, k + 1), k + 1) && Set(n, k + 1, value).Ok?
  {
    var e: u32 := k + 1;
    NewRootFrame(n, e, k);
    NewRootCapacity(n, e);
    var m := NewRoot(n, e);
    LowOfSmall(e, m.shift + BITS);
    SuccDescend(m, k);
  }

  /** Key 0 can always be written, whatever the root holds. */
  lemma ZeroSetOk<V>(n: Node<V>, value: V)
    requires WF(n) && n.shift + BITS <= U32_MAX
    ensures Descendable(NewRoot(n, 0), 0) && Set(n, 0, value).Ok?
  {
    var m := NewRoot(n, 0);
    LowOfZero(m.shift + BITS);
    ZeroDescend(m, 0);
  }

  // ---------------------------------------------------------------------
  // Appends: the next key stays unread, and full trees grow a level

  /** After an append at the frontier, the key after it is still not stored. */
  lemma AppendNextUnread<V>(n: Node<V>, key: u32, value: V)
    requires WF(n) && n.shift + 2 * BITS <= U32_MAX
    requires key + 1 < U32_MAX && key <= Cap(n.shift) && Frontier(NewRoot(n, key), key)
    ensures Descendable(NewRoot(n, key), key) && Set(n, key, value).Ok?
    ensures !Readable(Set(n, key, value).value, key + 1)
  {
    hide Halve, Pow2, Shr, Walkable, Get, Leaf, SetPath, Descendable, Reach, Low, Frontier, NewRoot, Set;
    AppendFrontier(n, key, value);
    WriteShape(n, key, value);
    var r := Set(n, key, value).value;
    FrontierUnread(NewRoot(r, key + 1), key + 1);
    if Readable(r, key + 1) {
      NewRootFrame(r, key + 1, key + 1);
      assert false;
    }
  }

  /** Every key of a leaf filled to SIZE holds a value. */
  lemma FullLeafReadable<V>(l: Node<V>, k: u32)
    requires WF(l) && l.shift == 0 && Width(l) == SIZE && k < SIZE
    ensures Readable(l, k) && Get(l, k) == Ok(l.elements[k].v)
  {
    hide Halve, Pow2, Shr, Digit, Set, SetPath, NewRoot, Descendable, Reach, Frontier;
  }

  /** Key 32 of a leaf is within its capacity and at the frontier of the grown root. */
  lemma LeafGrowthStart<V>(n: Node<V>)
    requires WF(n) && n.shift == 0
    ensures Cap(n.shift) == 32 && NewRoot(n, 32) == Node([Branch(n)], BITS)
    ensures Frontier(NewRoot(n, 32), 32)
  {
    assert Cap(0) == 32 by { assert Pow2(5) == 32; }
    NewRootWraps(n, 32);
    ShrBits(32);
    assert Low(32, 5) == 0;
  }

  /** Key 1024 of a shift-5 node is within its capacity and at the frontier of the grown root. */
  lemma TwoLevelGrowthStart<V>(n: Node<V>)
    requires WF(n) && n.shift == BITS
    ensures Cap(n.shift) == 1024 && NewRoot(n, 1024) == Node([Branch(n)], 2 * BITS)
    ensures Frontier(NewRoot(n, 1024), 1024)
  {
    KeyTenTwentyFour();
    NewRootWraps(n, 1024);
    hide Halve, Pow2, Shr, Digit, Low, Unit, Walkable, Get, Leaf, Readable, Set, SetPath, Descendable, Reach;
    assert NewRoot(n, 1024) == Node([Branch(n)], 2 * BITS);
  }

  /** Key 1024 is the first key past a shift-5 root: digit 1 at shift 10, nothing below it. */
  lemma KeyTenTwentyFour()
    ensures Cap(BITS) == 1024 && Shr(1024, BITS) == 32
    ensures Digit(1024, 2 * BITS) == 1 && Low(1024, 2 * BITS) == 0
  {
    Pow2Ten();
    hide Halve, Pow2;
    ShrDiv(1024, 5);
    ShrDiv(1024, 10);
    LowPow2(1024, 10);
  }

  /** Two and three digits of width: 2^5 and 2^10. */
  lemma Pow2Ten()
    ensures Pow2(5) == 32 && Pow2(10) == 1024
  {
    assert Pow2(5) == 32;
    Pow2Step5(5);
  }

  /**
    A full leaf accepts key 32: the root grows a level (shift 5), key 32
    reads the new value, keys 0 to 31 read as before, and key 33 is still
    not stored.
  */
  lemma FullLeafGrows<V>(n: Node<V>, value: V)
    requires WF(n) && n.shift == 0 && Width(n) == SIZE
    ensures Descendable(NewRoot(n, 32), 32) && Set(n, 32, value).Ok?
    ensures var r := Set(n, 32, value).value;
      && r.shift == BITS
      && Readable(r, 32) && Get(r, 32) == Ok(value)
      && (forall k: u32 :: k < 32 ==> Readable(n, k) && Readable(r, k) && Get(r, k) == Get(n, k))
      && !Readable(r, 33)
  {
    LeafGrowthStart(n);
    hide Halve, Pow2, Shr, Digit, Mask, Low, Frontier, NewRoot, SetPath, Descendable, Reach, Walkable, Leaf;
    AppendNextUnread(n, 32, value);
    SetReads(n, 32, value);
    forall k: u32 | k < 32
      ensures Readable(n, k) && Readable(Set(n, 32, value).value, k)
      ensures Get(Set(n, 32, value).value, k) == Get(n, k)
    {
      FullLeafReadable(n, k);
    }
  }

  /** Every key below 1024 of a shift-5 node whose 32 children are full leaves holds a value. */
  lemma FullTwoLevelReadable<V>(t: Node<V>, k: u32)
    requires WF(t) && t.shift == BITS && Width(t) == SIZE
    requires forall i :: 0 <= i < SIZE ==> Width(t.elements[i].node) == SIZE
    requires k < 1024
    ensures Readable(t, k)
  {
    ShrBits(k);
    var l := t.elements[k / 32].node;
    assert Digit(k, BITS) == k / 32;
    FullLeafReadable(l, k % 32);
    assert Mask(k) == k % 32;
  }

  /**
    A full two-level tree (32 full leaves under a shift-5 root) accepts key
    1024: the root grows a level (shift 10), key 1024 reads the new value,
    keys 0 to 1023 read as before, and key 1025 is still not stored.
  */
  lemma FullTwoLevelGrows<V>(n: Node<V>, value: V)
    requires WF(n) && n.shift == BITS && Width(n) == SIZE
    requires forall i :: 0 <= i < SIZE ==> Width(n.elements[i].node) == SIZE
    ensures Descendable(NewRoot(n, 1024), 1024) && Set(n, 1024, value).Ok?
    ensures var r := Set(n, 1024, value).value;
      && r.shift == 2 * BITS
      && Readable(r, 1024) && Get(r, 1024) == Ok(value)
      && (forall k: u32 :: k < 1024 ==> Readable(n, k) && Readable(r, k) && Get(r, k) == Get(n, k))
      && !Readable(r, 1025)
  {
    TwoLevelGrowthStart(n);
    hide Halve, Pow2, Shr, Digit, Mask, Low, Frontier, NewRoot, SetPath, Descendable, Reach, Walkable, Leaf;
    AppendNextUnread(n, 1024, value);
    SetReads(n, 1024, value);
    forall k: u32 | k < 1024
      ensures Readable(n, k) && Readable(Set(n, 1024, value).value, k)
      ensures Get(Set(n, 1024, value).value, k) == Get(n, k)
    {
      FullTwoLevelReadable(n, k);
    }
  }

  // ---------------------------------------------------------------------
  // Keys past the capacity of the root

  /**
    Why every frame property above asks for `key <= Cap(n.shift)`: on the
    leaf [a, b, c] the growth test of `NewRoot` holds for key 64
    (`1 << 0 < 64 >> 5`), so the leaf is only copied, key 64 lands on slot
    `64 & 31 == 0`, and the write overwrites key 0 instead of failing.
  */
  lemma SetPastCapacityAliases<V>(a: V, b: V, c: V, value: V)
    ensures var n := Node([Value(a), Value(b), Value(c)], 0);
      && Descendable(NewRoot(n, 64), 64)
      && Set(n, 64, value) == Ok(Node([Value(value), Value(b), Value(c)], 0))
      && Get(Set(n, 64, value).value, 0) == Ok(value) && Get(n, 0) == Ok(a)
  {
    var n := Node([Value(a), Value(b), Value(c)], 0);
    ShrBits(64);
    assert NewRoot(n, 64) == n;
    assert Mask(64) == 0;
    assert n.elements[0 := Value(value)] == [Value(value), Value(b), Value(c)];
    assert SetSubKey(n, 0, value) == (true, Node([Value(value), Value(b), Value(c)], 0));
    assert SetPath(n, 64, value) == Ok(Node([Value(value), Value(b), Value(c)], 0));
  }

  // ---------------------------------------------------------------------
  // Pop reads: only the last slot of the right-edge leaf is lost

  /** `key` reaches the last slot of the right-edge leaf: the slot `Pop` removes. */
  predicate AtLastSlot<V>(n: Node<V>, key: u32)
    decreases n
  {
    var w := |n.elements|;
    && w > 0
    && if n.shift == 0 then
         Mask(key) == w - 1
       else
         Digit(key, n.shift) == w - 1 && n.elements[w - 1].Branch? && AtLastSlot(n.elements[w - 1].node, key)
  }

  /**
    Trimming the right edge changes one read: the key at the last slot of the
    right-edge leaf, which held a value, now misses. Every other key walks and
    reads as before.
  */
  lemma {:induction false} PoppedEdgeReads<V>(n: Node<V>, r: Node<V>, key: u32)
    requires PoppedEdge(n, r) && Walkable(n, key)
    ensures Walkable(r, key)
    ensures Get(r, key) == if AtLastSlot(n, key) then Err(OutOfBounds(key)) else Get(n, key)
    ensures AtLastSlot(n, key) ==> Readable(n, key)
    decreases n
  {
    var w := |n.elements|;
    if n.shift == 0 {
      if Mask(key) < w - 1 {
        assert r.elements[Mask(key)] == n.elements[..w - 1][Mask(key)];
      }
    } else {
      var d := Digit(key, n.shift);
      if d == w - 1 {
        PoppedEdgeReads(n.elements[w - 1].node, r.elements[w - 1].node, key);
      } else {
        assert r.elements[d] == r.elements[..w - 1][d];
      }
    }
  }

  /**
    Node-level read frame of `Pop`: every key the root walks still walks, the
    key at the last slot of the right-edge leaf stops reading, and every other
    key reads as before.
  */
  lemma PopReads<V>(n: Node<V>, key: u32)
    requires WF(n) && Width(n) > 0 && RightEdgeFilled(n) && Walkable(n, key)
    ensures Walkable(Pop(n), key)
    ensures Get(Pop(n), key) == if AtLastSlot(n, key) then Err(OutOfBounds(key)) else Get(n, key)
    ensures AtLastSlot(n, key) ==> Readable(n, key)
  {
    PoppedEdgeReads(n, Pop(n), key);
  }

  // ---------------------------------------------------------------------
  // Pop on a right edge it has emptied

  /**
    `Pop` cannot be repeated once it empties a right-edge leaf: on the tree
    whose only leaf holds `a`, `Pop` leaves that leaf empty but still in
    place, so the right edge is no longer filled and a second `Pop` would
    slice the empty leaf to `Width() - 1`, which wraps to 0xFFFFFFFF.
  */
  lemma PopEmptiesRightLeaf<V>(a: V)
    ensures var n := Node([Branch(Node([Value(a)], 0))], BITS);
      && WF(n) && RightEdgeFilled(n) && Contents(n) == [a]
      && Pop(n) == Node([Branch(Node([], 0))], BITS)
      && Width(Pop(n)) > 0 && !RightEdgeFilled(Pop(n))
  {
    var leaf := Node([Value(a)], 0);
    var n := Node([Branch(leaf)], BITS);
    assert leaf.elements[1..] == [] && n.elements[1..] == [];
    assert Contents(leaf) == [a] + Flatten(leaf, []);
    assert Contents(n) == Contents(leaf) + Flatten(n, []);
    assert CopySubKey(n, 0) == (n, leaf);
    assert leaf.elements[..0] == [];
    assert PopPath(leaf) == Node([], 0);
    assert n.elements[0 := Branch(Node([], 0))] == [Branch(Node([], 0))];
  }
}

=== FILE: vector.dfy ===
/**
  The vector handle (vector/vector.go): a root node plus `Length` and
  `Offset`. Element `i` of the vector is root key `Offset + i`, for
  `i < Length`; `View` collects those elements into a sequence, and every
  operation is specified by what it does to that sequence.

  `Node.Truncate`, `Node.EraseTo` and `EmptyNode` are not part of this
  model: `Truncate` and `Drop` take the node those calls return as a
  parameter. Beyond what the doc comments of vector.go promise (the kept
  keys read unchanged), the model assumes that node is well formed, at
  most 32 wide, and still addresses every key up to the old end. The
  empty root is an empty leaf.
*/
module Vectors {
  import opened Bits
  import opened Errors
  import opened Nodes
  import opened NodeLemmas

  datatype Vector<V> = Vector(root: Node<V>, length: u32, offset: u32)

  /** One past the last root key in use. */
  function End<V>(vec: Vector<V>): nat
  {
    vec.offset + vec.length
  }

  /**
    The representation invariant: a well-formed, at most 32-wide trie that
    addresses every key up to `End` without aliasing and holds a value at
    every key of the vector.
  */
  predicate Valid<V>(vec: Vector<V>)
  {
    Shaped(vec) && forall i: nat :: i < vec.length ==> Stored(vec, i)
  }

  /** The shape part of `Valid`: a well-formed, narrow root that addresses every key below `End`. */
  predicate Shaped<V>(vec: Vector<V>)
  {
    && WF(vec.root)
    && Narrow(vec.root)
    && vec.offset + vec.length <= U32_MAX
    && vec.offset + vec.length <= Cap(vec.root.shift)
  }

  /** Root key `Offset + i` is a uint32 key that holds a value. */
  predicate Stored<V>(vec: Vector<V>, i: nat)
  {
    vec.offset + i <= U32_MAX && Readable(vec.root, vec.offset + i)
  }

  /** The value at root key `Offset + i`. */
  function At<V>(vec: Vector<V>, i: nat): V
    requires Stored(vec, i)
  {
    Nodes.Get(vec.root, vec.offset + i).value
  }

  /** The elements of the vector, in order. */
  function View<V>(vec: Vector<V>): (s: seq<V>)
    requires Valid(vec)
    ensures |s| == vec.length
    ensures forall i :: 0 <= i < vec.length ==> s[i] == At(vec, i)
  {
    seq(vec.length, i requires 0 <= i < vec.length && Stored(vec, i) => At(vec, i))
  }

  /**
    The vector can take one more `Append`: the length has room, and the key
    `End` sits on the right edge of the root `Set` will build for it.
  */
  predicate AppendReady<V>(vec: Vector<V>)
  {
    var end := vec.offset + vec.length;
    end < U32_MAX && Frontier(NewRoot(vec.root, end), end)
  }

  /**
    `Set(Length, _)` can be called on the vector: the length has room, and
    the key `End` follows a stored element, or is key 0, or sits on the
    right edge of the root `Set` will build for it. Only an empty vector
    with an offset, which `Truncate(0)` or the last `Pop` can leave behind a
    `Drop`, needs the last case.
  */
  predicate Appendable<V>(vec: Vector<V>)
  {
    End(vec) < U32_MAX && (vec.length > 0 || vec.offset == 0 || AppendReady(vec))
  }

  /** The shared empty vector: an empty leaf, no elements, no offset. */
  function Empty<V>(): (r: Vector<V>)
    ensures r.length == 0 && r.offset == 0 && r.root.shift == 0
    ensures Valid(r) && View(r) == []
  {
    Vector(Node([], 0), 0, 0)
  }

  /** Number of elements. */
  function Count<V>(vec: Vector<V>): (r: u32)
    ensures Valid(vec) ==> r == |View(vec)|
  {
    vec.length
  }

  /** Element `key`; OutOfBounds(key) unless `key < Length`. */
  function Get<V>(vec: Vector<V>, key: u32): (r: Result<V>)
    requires Valid(vec)
    ensures r.Err? <==> key >= vec.length
    ensures r.Err? ==> r.error == OutOfBounds(key)
    ensures r.Ok? ==> r.value == View(vec)[key]
  {
    if vec.length > key then
      assert Stored(vec, key);
      Ok(Nodes.Get(vec.root, vec.offset + key).value)
    else
      Err(OutOfBounds(key))
  }

  /**
    Overwrite element `key`, or append when `key == Length`; OutOfBounds(key)
    beyond that. The root write always succeeds here: an existing key is
    readable, and the append key follows one, is key 0, or is on the right
    edge. An overwrite keeps the append key on the right edge, so the result
    is again ready for an append while the shift has room.
  */
  function Set<V>(vec: Vector<V>, key: u32, value: V): (r: Result<Vector<V>>)
    requires Valid(vec) && vec.root.shift + BITS <= U32_MAX
    requires key == vec.length ==> End(vec) < U32_MAX
    requires key == vec.length ==> vec.length > 0 || vec.offset == 0 || AppendReady(vec)
    ensures r.Err? <==> key > vec.length
    ensures r.Err? ==> r.error == OutOfBounds(key)
    ensures r.Ok? ==> Valid(r.value) && r.value.offset == vec.offset
    ensures r.Ok? ==> r.value.length == if key == vec.length then vec.length + 1 else vec.length
    ensures r.Ok? && key < vec.length ==> View(r.value) == View(vec)[key := value]
    ensures r.Ok? && key == vec.length ==> View(r.value) == View(vec) + [value]
    ensures r.Ok? ==> r.value.root.shift == NewRoot(vec.root, vec.offset + key).shift
    ensures r.Ok? && key < vec.length && AppendReady(vec) && r.value.root.shift + BITS <= U32_MAX ==> AppendReady(r.value)
  {
    if key > vec.length then
      Err(OutOfBounds(key))
    else
      SetWrite(vec, key, value);
      if key < vec.length && AppendReady(vec) then
        OverwriteKeepsReady(vec, key, value);
        Ok(SetResult(vec, key, value))
      else
        Ok(SetResult(vec, key, value))
  }

  /**
    `Set(Length, value)`; never fails on an appendable vector, and the result
    is appendable again while the length has room.
  */
  function Append<V>(vec: Vector<V>, value: V): (r: Vector<V>)
    requires Valid(vec) && vec.root.shift + BITS <= U32_MAX && Appendable(vec)
    ensures Valid(r) && r.offset == vec.offset && r.length == vec.length + 1
    ensures View(r) == View(vec) + [value]
    ensures r.root.shift == if vec.root.shift < 32 || End(vec) < SIZE then vec.root.shift + BITS else vec.root.shift
    ensures End(r) < U32_MAX ==> Appendable(r)
    ensures AppendReady(vec) && r.root.shift + BITS <= U32_MAX && End(r) < U32_MAX ==> AppendReady(r)
  {
    AppendSet(vec, value);
    Set(vec, vec.length, value).value
  }

  /**
    Put `value` in front, at root key `Offset - 1`. With no room on the left
    (`Offset == 0`) the receiver is returned unchanged.
  */
  function Prepend<V>(vec: Vector<V>, value: V): (r: Vector<V>)
    requires Valid(vec) && vec.root.shift + BITS <= U32_MAX
    requires vec.offset > 0 ==>
      Descendable(NewRoot(vec.root, vec.offset - 1), vec.offset - 1) && Nodes.Set(vec.root, vec.offset - 1, value).Ok?
    ensures vec.offset == 0 ==> r == vec
    ensures vec.offset > 0 ==> r.offset == vec.offset - 1 && r.length == vec.length + 1
    ensures Valid(r)
    ensures vec.offset > 0 ==> View(r) == [value] + View(vec)
    ensures AppendReady(vec) && r.root.shift + BITS <= U32_MAX ==> AppendReady(r)
  {
    if vec.offset == 0 then
      vec
    else
      PrependRoot(vec, value);
      PrependKeepsReady(vec, value);
      PrependResult(vec, value)
  }

  /**
    What the model assumes of the root `Node.Truncate(end)` returns. The doc
    comments promise that it reads every key below `end` as `before` does;
    that it is well formed, at most 32 wide and addresses `end` keys is
    assumed on top of that.
  */
  ghost predicate KeepsBelow<V>(before: Node<V>, end: nat, cut: Node<V>)
  {
    && WF(cut) && Narrow(cut) && end <= Cap(cut.shift)
    && forall k: u32 :: k < end && Readable(before, k) ==> Readable(cut, k) && Nodes.Get(cut, k) == Nodes.Get(before, k)
  }

  /**
    What the model assumes of the root `Node.EraseTo(start)` returns. The doc
    comments promise that it reads every key from `start` up to `end` as
    `before` does; that it is well formed, at most 32 wide and addresses
    `end` keys is assumed on top of that.
  */
  ghost predicate KeepsFrom<V>(before: Node<V>, start: nat, end: nat, erased: Node<V>)
  {
    && WF(erased) && Narrow(erased) && end <= Cap(erased.shift)
    && forall k: u32 :: start <= k < end && Readable(before, k) ==> Readable(erased, k) && Nodes.Get(erased, k) == Nodes.Get(before, k)
  }

  /**
    Keep the first `n` elements; `cut` is the root `Node.Truncate(Offset + n)`
    returns. Asking for at least `Length` elements returns the receiver.
  */
  function Truncate<V>(vec: Vector<V>, n: u32, cut: Node<V>): (r: Vector<V>)
    requires Valid(vec)
    requires n < vec.length ==> KeepsBelow(vec.root, vec.offset + n, cut)
    ensures n >= vec.length ==> r == vec
    ensures n < vec.length ==> r.length == n && r.offset == vec.offset && r.root == cut
    ensures Valid(r)
    ensures View(r) == if n < vec.length then View(vec)[..n] else View(vec)
  {
    if n < vec.length then
      TruncateView(vec, n, cut);
      Vector(cut, n, vec.offset)
    else
      vec
  }

  /**
    Remove the first `n` elements; `erased` is the root
    `Node.EraseTo(Offset + n)` returns. Dropping everything gives the empty
    vector and dropping nothing gives the receiver.
  */
  function Drop<V>(vec: Vector<V>, n: u32, erased: Node<V>): (r: Vector<V>)
    requires Valid(vec)
    requires 0 < n < vec.length ==> KeepsFrom(vec.root, vec.offset + n, End(vec), erased)
    ensures n >= vec.length ==> r == Empty()
    ensures n == 0 < vec.length ==> r == vec
    ensures 0 < n < vec.length ==> r.length == vec.length - n && r.offset == vec.offset + n && r.root == erased
    ensures Valid(r)
    ensures View(r) == if n < vec.length then View(vec)[n..] else []
  {
    if n >= vec.length then
      Empty()
    else if n > 0 then
      DropView(vec, n, erased);
      Vector(erased, vec.length - n, vec.offset + n)
    else
      vec
  }

  /** Remove the last element; `cut` is the root `Node.Truncate(End - 1)` returns. No-op when empty. */
  function Pop<V>(vec: Vector<V>, cut: Node<V>): (r: Vector<V>)
    requires Valid(vec)
    requires vec.length > 0 ==> KeepsBelow(vec.root, End(vec) - 1, cut)
    ensures vec.length == 0 ==> r == vec
    ensures vec.length > 0 ==> r.length == vec.length - 1 && r.offset == vec.offset
    ensures Valid(r)
    ensures vec.length > 0 ==> View(r) == View(vec)[..vec.length - 1]
  {
    if vec.length == 0 then vec else Truncate(vec, vec.length - 1, cut)
  }

  /** Remove the first element; `erased` is the root `Node.EraseTo(Offset + 1)` returns. No-op when empty. */
  function Shift<V>(vec: Vector<V>, erased: Node<V>): (r: Vector<V>)
    requires Valid(vec)
    requires vec.length > 1 ==> KeepsFrom(vec.root, vec.offset + 1, End(vec), erased)
    ensures vec.length == 0 ==> r == vec
    ensures vec.length == 1 ==> r == Empty()
    ensures vec.length > 1 ==> r.length == vec.length - 1 && r.offset == vec.offset + 1
    ensures Valid(r)
    ensures vec.length > 0 ==> View(r) == View(vec)[1..]
  {
    if vec.length == 0 then vec else Drop(vec, 1, erased)
  }

  /**
    Append every element of `xs` in turn to the empty vector. The root shift
    grows by BITS for each of the first 32 appends and then stays put: past
    32 the growth test of `NewRoot` copies the root instead of wrapping it.
  */
  function New<V>(xs: seq<V>): (r: Vector<V>)
    requires |xs| <= U32_MAX
    ensures Valid(r) && r.offset == 0 && r.length == |xs|
    ensures View(r) == xs
    ensures r.root.shift == 5 * Min(|xs|, SIZE)
    ensures |xs| < U32_MAX ==> AppendReady(r)
  {
    EmptyBuilt<V>();
    AppendAll(Empty(), xs)
  }

  /** The loop of `New`: `acc.Append(v)` for each `v` of `xs`, in order. */
  function AppendAll<V>(acc: Vector<V>, xs: seq<V>): (r: Vector<V>)
    requires Built(acc) && acc.length + |xs| <= U32_MAX
    ensures Built(r) && r.length == acc.length + |xs|
    ensures View(r) == View(acc) + xs
    decreases |xs|
  {
    if xs == [] then
      acc
    else
      AppendStep(acc, xs);
      AppendAll(Append(acc, xs[0]), xs[1..])
  }

  /**
    The shape of a vector grown from the empty one by appends alone: no
    offset, a root shift of BITS per element up to 32 elements, and room for
    the next append while the length allows one.
  */
  predicate Built<V>(vec: Vector<V>)
  {
    && Valid(vec) && vec.offset == 0
    && vec.root.shift == 5 * Min(vec.length, SIZE)
    && (vec.length < U32_MAX ==> AppendReady(vec))
  }

  function Min(a: nat, b: nat): nat
  {
    if a <= b then a else b
  }

  // ---------------------------------------------------------------------
  // Proofs behind the operations

  /** The empty vector is where `New` starts: it is ready for its first append. */
  lemma EmptyBuilt<V>()
    ensures Built(Empty<V>())
  {
    LeafReady<V>(Empty());
  }

  /** A vector whose root is a leaf filled exactly up to `End` is ready for an append. */
  lemma LeafReady<V>(vec: Vector<V>)
    requires WF(vec.root) && vec.root.shift == 0 && Width(vec.root) == vec.offset + vec.length < SIZE
    ensures AppendReady(vec)
  {
    FrontierNewRoot(vec.root, End(vec));
  }

  /** An append keeps the shape of a vector built by appends alone. */
  lemma BuiltAppend<V>(vec: Vector<V>, x: V)
    requires Built(vec) && vec.length < U32_MAX
    ensures vec.root.shift + BITS <= U32_MAX && AppendReady(vec)
    ensures Built(Append(vec, x))
  {
  }

  /** One turn of the loop of `New`: appending the head of `xs` keeps the append-only shape and moves it to the view. */
  lemma AppendStep<V>(acc: Vector<V>, xs: seq<V>)
    requires Built(acc) && acc.length + |xs| <= U32_MAX && xs != []
    ensures acc.root.shift + BITS <= U32_MAX && AppendReady(acc)
    ensures Built(Append(acc, xs[0])) && Append(acc, xs[0]).length == acc.length + 1
    ensures View(acc) + xs == View(Append(acc, xs[0])) + xs[1..]
  {
    hide Nodes.Set, NewRoot, SetPath, Descendable, Halve, Pow2, Walkable, Nodes.Get, Leaf, Reach;
    BuiltAppend(acc, xs[0]);
    assert View(acc) + xs == View(acc) + [xs[0]] + xs[1..];
  }

  /** The root write of `Set` succeeds and yields a valid vector with the expected view. */
  lemma SetRoot<V>(vec: Vector<V>, key: u32, value: V)
    requires Valid(vec) && vec.root.shift + BITS <= U32_MAX
    requires key <= vec.length && (key == vec.length ==> End(vec) < U32_MAX)
    requires Descendable(NewRoot(vec.root, vec.offset + key), vec.offset + key)
    requires Nodes.Set(vec.root, vec.offset + key, value).Ok?
    ensures var r := SetResult(vec, key, value);
      Valid(r) && View(r) == if key < vec.length then View(vec)[key := value] else View(vec) + [value]
  {
    hide Nodes.Set, NewRoot, SetPath, Descendable, Halve, Pow2, Walkable, Nodes.Get, Leaf, Reach, Overwrites;
    var nr := Nodes.Set(vec.root, vec.offset + key, value).value;
    SetOverwrites(vec.root, vec.offset + key, value);
    WrittenView(vec, key, value, nr);
  }

  /** The vector `Set` builds once its root write has succeeded. */
  function SetResult<V>(vec: Vector<V>, key: u32, value: V): Vector<V>
    requires WF(vec.root) && End(vec) <= U32_MAX && vec.root.shift + BITS <= U32_MAX
    requires key <= vec.length && (key == vec.length ==> End(vec) < U32_MAX)
    requires Descendable(NewRoot(vec.root, vec.offset + key), vec.offset + key)
    requires Nodes.Set(vec.root, vec.offset + key, value).Ok?
  {
    Vector(Nodes.Set(vec.root, vec.offset + key, value).value,
           if key == vec.length then vec.length + 1 else vec.length, vec.offset)
  }

  /** The in-bounds branch of `Set`: the root write succeeds and the new vector holds `value` at `key`. */
  lemma SetWrite<V>(vec: Vector<V>, key: u32, value: V)
    requires Valid(vec) && vec.root.shift + BITS <= U32_MAX
    requires key <= vec.length && (key == vec.length ==> Appendable(vec))
    ensures Descendable(NewRoot(vec.root, vec.offset + key), vec.offset + key)
    ensures Nodes.Set(vec.root, vec.offset + key, value).Ok?
    ensures var r := SetResult(vec, key, value);
      && Valid(r) && r.offset == vec.offset
      && r.length == (if key == vec.length then vec.length + 1 else vec.length)
      && View(r) == (if key < vec.length then View(vec)[key := value] else View(vec) + [value])
      && r.root.shift == NewRoot(vec.root, vec.offset + key).shift
  {
    hide Nodes.Set, NewRoot, SetPath, Descendable, Halve, Pow2, Walkable, Nodes.Get, Leaf, Reach;
    SetRootOk(vec, key, value);
    SetRoot(vec, key, value);
  }

  /**
    The root write of `Set` neither panics nor fails: an existing key is
    readable, and the append key follows a stored one, is key 0, or is on the
    right edge.
  */
  lemma SetRootOk<V>(vec: Vector<V>, key: u32, value: V)
    requires Valid(vec) && vec.root.shift + BITS <= U32_MAX
    requires key <= vec.length
    requires key == vec.length ==> Appendable(vec)
    ensures Descendable(NewRoot(vec.root, vec.offset + key), vec.offset + key)
    ensures Nodes.Set(vec.root, vec.offset + key, value).Ok?
  {
    hide Nodes.Set, NewRoot, SetPath, Descendable, Halve, Pow2, Walkable, Nodes.Get, Leaf, Reach;
    var k := vec.offset + key;
    if key < vec.length {
      assert Stored(vec, key);
      ReadableSetOk(vec.root, k, value);
    } else if vec.length > 0 {
      assert Stored(vec, vec.length - 1);
      SuccSetOk(vec.root, k - 1, value);
    } else if vec.offset == 0 {
      ZeroSetOk(vec.root, value);
    } else {
      FrontierReach(NewRoot(vec.root, k), k);
    }
  }

  /**
    A root `nr` that overwrites root key `Offset + key` of `vec` holds the
    vector with element `key` replaced, or with `value` appended when
    `key == Length`.
  */
  lemma WrittenView<V>(vec: Vector<V>, key: u32, value: V, nr: Node<V>)
    requires Valid(vec) && key <= vec.length && (key == vec.length ==> End(vec) < U32_MAX)
    requires Overwrites(vec.root, vec.offset + key, value, nr)
    ensures var r := Vector(nr, if key == vec.length then vec.length + 1 else vec.length, vec.offset);
      Valid(r) && View(r) == if key < vec.length then View(vec)[key := value] else View(vec) + [value]
  {
    hide Nodes.Set, NewRoot, SetPath, Descendable, Halve, Pow2, Walkable, Nodes.Get, Leaf, Reach;
    var r := Vector(nr, if key == vec.length then vec.length + 1 else vec.length, vec.offset);
    forall i: nat | i < vec.length && i != key
      ensures Stored(r, i) && At(r, i) == At(vec, i)
    {
      assert Stored(vec, i);
      OverwritesOther(vec.root, vec.offset + key, value, nr, vec.offset + i);
    }
    ReplacedView(vec, r, key, value);
  }

  /**
    A well-formed vector that holds `value` at `key` and the elements of
    `vec` everywhere else below its length has the view of `vec` with
    element `key` replaced, or extended by `value` when `key == Length`.
  */
  lemma ReplacedView<V>(vec: Vector<V>, r: Vector<V>, key: u32, value: V)
    requires Valid(vec) && key <= vec.length
    requires r.length == if key == vec.length then vec.length + 1 else vec.length
    requires Shaped(r)
    requires Stored(r, key) && At(r, key) == value
    requires forall i: nat :: i < vec.length && i != key ==> Stored(r, i) && At(r, i) == At(vec, i)
    ensures Valid(r)
    ensures View(r) == if key < vec.length then View(vec)[key := value] else View(vec) + [value]
  {
    hide Nodes.Set, NewRoot, SetPath, Descendable, Halve, Pow2, Walkable, Nodes.Get, Leaf, Reach;
    assert forall i: nat :: i < r.length ==> Stored(r, i);
  }

  /** Overwriting an element keeps the vector ready for an append, while the root shift has room. */
  lemma OverwriteKeepsReady<V>(vec: Vector<V>, key: u32, value: V)
    requires Valid(vec) && vec.root.shift + BITS <= U32_MAX && key < vec.length && AppendReady(vec)
    ensures Descendable(NewRoot(vec.root, vec.offset + key), vec.offset + key)
    ensures Nodes.Set(vec.root, vec.offset + key, value).Ok?
    ensures var r := SetResult(vec, key, value);
      r.root.shift + BITS <= U32_MAX ==> AppendReady(r)
  {
    hide Nodes.Set, NewRoot, SetPath, Descendable, Halve, Pow2, Walkable, Nodes.Get, Leaf, Reach, Frontier;
    assert Stored(vec, key);
    ReadableSetOk(vec.root, vec.offset + key, value);
    WriteBelowKeepsFrontier(vec.root, vec.offset + key, value, End(vec));
  }

  /** `Set(Length, value)` on an appendable vector: the facts `Append` promises. */
  lemma AppendSet<V>(vec: Vector<V>, value: V)
    requires Valid(vec) && vec.root.shift + BITS <= U32_MAX && Appendable(vec)
    ensures var r := Set(vec, vec.length, value).value;
      && Valid(r) && r.offset == vec.offset && r.length == vec.length + 1
      && View(r) == View(vec) + [value]
      && r.root.shift == (if vec.root.shift < 32 || End(vec) < SIZE then vec.root.shift + BITS else vec.root.shift)
      && (AppendReady(vec) && r.root.shift + BITS <= U32_MAX && End(r) < U32_MAX ==> AppendReady(r))
  {
    hide Nodes.Set, NewRoot, SetPath, Descendable, Halve, Pow2, Walkable, Nodes.Get, Leaf, Reach;
    if AppendReady(vec) {
      AppendKeepsReady(vec, value);
    }
    NewRootShift(vec.root, vec.offset + vec.length);
  }

  /** After an append the next append is still possible, as long as the shift and length have room. */
  lemma AppendKeepsReady<V>(vec: Vector<V>, value: V)
    requires Valid(vec) && vec.root.shift + BITS <= U32_MAX && AppendReady(vec)
    ensures Descendable(NewRoot(vec.root, End(vec)), End(vec)) && Nodes.Set(vec.root, End(vec), value).Ok?
    ensures var r := SetResult(vec, vec.length, value);
      r.root.shift + BITS <= U32_MAX && End(r) < U32_MAX ==> AppendReady(r)
  {
    hide Nodes.Set, NewRoot, SetPath, Descendable, Halve, Pow2, Walkable, Nodes.Get, Leaf, Reach;
    AppendFrontier(vec.root, End(vec), value);
  }

  /** The vector `Prepend` builds once root key `Offset - 1` is written. */
  function PrependResult<V>(vec: Vector<V>, value: V): Vector<V>
    requires WF(vec.root) && End(vec) <= U32_MAX && vec.root.shift + BITS <= U32_MAX && vec.offset > 0
    requires Descendable(NewRoot(vec.root, vec.offset - 1), vec.offset - 1)
    requires Nodes.Set(vec.root, vec.offset - 1, value).Ok?
  {
    Vector(Nodes.Set(vec.root, vec.offset - 1, value).value, vec.length + 1, vec.offset - 1)
  }

  /** The root write of `Prepend` yields a valid vector whose view gained `value` in front. */
  lemma PrependRoot<V>(vec: Vector<V>, value: V)
    requires Valid(vec) && vec.root.shift + BITS <= U32_MAX && vec.offset > 0
    requires Descendable(NewRoot(vec.root, vec.offset - 1), vec.offset - 1)
    requires Nodes.Set(vec.root, vec.offset - 1, value).Ok?
    ensures Valid(PrependResult(vec, value))
    ensures View(PrependResult(vec, value)) == [value] + View(vec)
  {
    hide Nodes.Set, NewRoot, SetPath, Descendable, Halve, Pow2, Walkable, Nodes.Get, Leaf, Reach, Overwrites;
    var nr := Nodes.Set(vec.root, vec.offset - 1, value).value;
    SetOverwrites(vec.root, vec.offset - 1, value);
    PrependedView(vec, value, nr);
  }

  /** Prepending keeps the vector ready for an append, while the root shift has room: `End` does not move. */
  lemma PrependKeepsReady<V>(vec: Vector<V>, value: V)
    requires Valid(vec) && vec.root.shift + BITS <= U32_MAX && vec.offset > 0
    requires Descendable(NewRoot(vec.root, vec.offset - 1), vec.offset - 1)
    requires Nodes.Set(vec.root, vec.offset - 1, value).Ok?
    ensures var r := PrependResult(vec, value);
      AppendReady(vec) && r.root.shift + BITS <= U32_MAX ==> AppendReady(r)
  {
    hide Nodes.Set, NewRoot, SetPath, Descendable, Halve, Pow2, Walkable, Nodes.Get, Leaf, Reach, Frontier;
    if AppendReady(vec) {
      WriteBelowKeepsFrontier(vec.root, vec.offset - 1, value, End(vec));
    }
  }

  /** A root `nr` that overwrites root key `Offset - 1` of `vec` holds `value` followed by the vector. */
  lemma PrependedView<V>(vec: Vector<V>, value: V, nr: Node<V>)
    requires Valid(vec) && vec.offset > 0
    requires Overwrites(vec.root, vec.offset - 1, value, nr)
    ensures var r := Vector(nr, vec.length + 1, vec.offset - 1);
      Valid(r) && View(r) == [value] + View(vec)
  {
    hide Nodes.Set, NewRoot, SetPath, Descendable, Halve, Pow2, Walkable, Nodes.Get, Leaf, Reach;
    var r := Vector(nr, vec.length + 1, vec.offset - 1);
    forall i: nat | 0 < i < r.length
      ensures Stored(r, i) && At(r, i) == At(vec, i - 1)
    {
      assert Stored(vec, i - 1);
      OverwritesOther(vec.root, vec.offset - 1, value, nr, vec.offset + (i - 1));
      assert r.offset + i == vec.offset + (i - 1);
    }
    ShiftedView(vec, r, value);
  }

  /** A well-formed vector holding `value` and then the elements of `vec`, in order, has view `[value] + View(vec)`. */
  lemma ShiftedView<V>(vec: Vector<V>, r: Vector<V>, value: V)
    requires Valid(vec) && r.length == vec.length + 1
    requires Shaped(r)
    requires Stored(r, 0) && At(r, 0) == value
    requires forall i: nat :: 0 < i < r.length ==> Stored(r, i) && At(r, i) == At(vec, i - 1)
    ensures Valid(r) && View(r) == [value] + View(vec)
  {
    hide Nodes.Set, NewRoot, SetPath, Descendable, Halve, Pow2, Walkable, Nodes.Get, Leaf, Reach;
    assert forall i: nat :: i < r.length ==> Stored(r, i);
  }

  /** A root that keeps the keys below `Offset + n` gives the first `n` elements of the view. */
  lemma TruncateView<V>(vec: Vector<V>, n: u32, cut: Node<V>)
    requires Valid(vec) && n < vec.length
    requires KeepsBelow(vec.root, vec.offset + n, cut)
    ensures var r := Vector(cut, n, vec.offset);
      Valid(r) && View(r) == View(vec)[..n]
  {
    hide Nodes.Set, NewRoot, SetPath, Descendable, Halve, Pow2, Walkable, Nodes.Get, Leaf, Reach;
    var r := Vector(cut, n, vec.offset);
    forall i: nat | i < n
      ensures Stored(r, i) && At(r, i) == At(vec, i)
    {
      assert Stored(vec, i);
    }
    assert Valid(r);
    assert View(r) == View(vec)[..n];
  }

  /** A root that keeps the keys from `Offset + n` to `End` gives the view without its first `n` elements. */
  lemma DropView<V>(vec: Vector<V>, n: u32, erased: Node<V>)
    requires Valid(vec) && 0 < n < vec.length
    requires KeepsFrom(vec.root, vec.offset + n, End(vec), erased)
    ensures var r := Vector(erased, vec.length - n, vec.offset + n);
      Valid(r) && View(r) == View(vec)[n..]
  {
    hide Nodes.Set, NewRoot, SetPath, Descendable, Halve, Pow2, Walkable, Nodes.Get, Leaf, Reach;
    var r := Vector(erased, vec.length - n, vec.offset + n);
    forall i: nat | i < r.length
      ensures Stored(r, i) && At(r, i) == At(vec, n + i)
    {
      assert Stored(vec, n + i);
      assert r.offset + i == vec.offset + (n + i);
    }
    assert Valid(r);
    assert View(r) == View(vec)[n..];
  }
}

=== FILE: vector_lemmas.dfy ===
/**
  The public behaviour of the vector handle, stated through `Get` and
  `Count` only: what a caller of vector/vector.go can observe after each
  operation.
*/
module VectorLemmas {
  import opened Bits
  import opened Errors
  import Nodes
  import opened Vectors

  /** `Count` and `Get` agree with the sequence view. */
  lemma GetView<V>(vec: Vector<V>, key: u32)
    requires Valid(vec)
    ensures Count(vec) == |View(vec)|
    ensures key < Count(vec) ==> Get(vec, key) == Ok(View(vec)[key])
    ensures key >= Count(vec) ==> Get(vec, key) == Err(OutOfBounds(key))
  {
  }

  /** `Set(k, v).Get(k) == v` for an existing index, and every other index reads as before. */
  lemma SetThenGet<V>(vec: Vector<V>, key: u32, value: V)
    requires Valid(vec) && vec.root.shift + BITS <= U32_MAX && key < vec.length
    ensures Set(vec, key, value).Ok?
    ensures var r := Set(vec, key, value).value;
      && Count(r) == Count(vec)
      && Get(r, key) == Ok(value)
      && forall j: u32 :: j != key ==> Get(r, j) == Get(vec, j)
  {
    var r := Set(vec, key, value).value;
    forall j: u32 | j != key
      ensures Get(r, j) == Get(vec, j)
    {
      GetView(r, j);
      GetView(vec, j);
    }
  }

  /** `Append(v)` adds one element, `v`, after the others. */
  lemma AppendThenGet<V>(vec: Vector<V>, value: V)
    requires Valid(vec) && vec.root.shift + BITS <= U32_MAX && Appendable(vec)
    ensures var r := Append(vec, value);
      && Count(r) == Count(vec) + 1
      && Get(r, vec.length) == Ok(value)
      && forall j: u32 :: j < vec.length ==> Get(r, j) == Get(vec, j)
  {
  }

  /**
    Append, overwrite, append again, as on a vector whose root is an empty
    leaf: `Set(0, a)`, then `Set(0, b)`, then `Set(1, c)`. Every step
    succeeds, the count goes 1, 1, 2, and the overwrite leaves the vector
    ready for the second append.
  */
  lemma SetOverwriteAppend<V>(e: Vector<V>, a: V, b: V, c: V)
    requires e.root.shift == 0 && Nodes.Width(e.root) == 0 && e.length == 0 && e.offset == 0
    ensures Valid(e) && AppendReady(e)
    ensures var v1 := Set(e, 0, a);
      && v1.Ok? && v1.value.offset == 0 && Count(v1.value) == 1 && v1.value.root.shift == BITS
      && var v2 := Set(v1.value, 0, b);
        && v2.Ok? && v2.value.offset == 0 && Count(v2.value) == 1 && v2.value.root.shift + BITS <= U32_MAX
        && var v3 := Set(v2.value, 1, c);
          v3.Ok? && Count(v3.value) == 2 && View(v3.value) == [b, c]
    ensures var v1 := Set(e, 0, a).value;
      AppendReady(v1) && AppendReady(Set(v1, 0, b).value)
  {
    SetIntoEmpty(e, a);
    var v1 := Set(e, 0, a).value;
    OverwriteSingle(v1, b);
    var v2 := Set(v1, 0, b).value;
    AppendSecond(v2, c);
  }

  /** `Set(0, a)` on a vector whose root is an empty leaf: one element, at shift 5, ready for the next append. */
  lemma SetIntoEmpty<V>(e: Vector<V>, a: V)
    requires e.root.shift == 0 && Nodes.Width(e.root) == 0 && e.length == 0 && e.offset == 0
    ensures Valid(e) && AppendReady(e)
    ensures var r := Set(e, 0, a);
      && r.Ok? && Valid(r.value) && r.value.offset == 0 && r.value.length == 1
      && r.value.root.shift == BITS && AppendReady(r.value)
  {
    LeafReady(e);
    assert Valid(e);
    hide Set, Valid, AppendReady, View, Nodes.Set, Nodes.NewRoot, Nodes.SetPath, Nodes.Descendable, Nodes.Walkable, Nodes.Get, Nodes.Leaf, Nodes.Reach, Halve, Pow2;
    AppendSet(e, a);
  }

  /** Overwriting the only element of a one-element vector keeps it ready for the next append. */
  lemma OverwriteSingle<V>(v: Vector<V>, b: V)
    requires Valid(v) && v.offset == 0 && v.length == 1 && v.root.shift == BITS && AppendReady(v)
    ensures var r := Set(v, 0, b);
      && r.Ok? && Valid(r.value) && r.value.offset == 0 && r.value.length == 1
      && r.value.root.shift + BITS <= U32_MAX && AppendReady(r.value) && View(r.value) == [b]
  {
    hide Valid, AppendReady, View, Nodes.Set, Nodes.NewRoot, Nodes.SetPath, Nodes.Descendable, Nodes.Walkable, Nodes.Get, Nodes.Leaf, Nodes.Reach, Halve, Pow2;
    Nodes.NewRootShift(v.root, 0);
    assert View(Set(v, 0, b).value) == View(v)[0 := b];
  }

  /** `Set(1, c)` on a one-element vector appends `c`. */
  lemma AppendSecond<V>(v: Vector<V>, c: V)
    requires Valid(v) && v.offset == 0 && v.length == 1 && v.root.shift + BITS <= U32_MAX
    ensures var r := Set(v, 1, c);
      r.Ok? && r.value.length == 2 && View(r.value) == View(v) + [c]
  {
  }

  /** `New(xs...)` holds `xs` in order and nothing past it. */
  lemma NewThenGet<V>(xs: seq<V>, key: u32)
    requires |xs| <= U32_MAX
    ensures Count(New(xs)) == |xs|
    ensures key < |xs| ==> Get(New(xs), key) == Ok(xs[key])
    ensures key >= |xs| ==> Get(New(xs), key) == Err(OutOfBounds(key))
  {
  }

  /** `New()` with no elements is the empty vector. */
  lemma NewNothing<V>()
    ensures New<V>([]) == Empty()
  {
  }

  /**
    `Prepend(v)` with room on the left puts `v` at index 0 and moves every
    element up by one; without room it changes nothing.
  */
  lemma PrependThenGet<V>(vec: Vector<V>, value: V)
    requires Valid(vec) && vec.root.shift + BITS <= U32_MAX
    requires vec.offset > 0 ==>
      Nodes.Descendable(Nodes.NewRoot(vec.root, vec.offset - 1), vec.offset - 1) && Nodes.Set(vec.root, vec.offset - 1, value).Ok?
    ensures vec.offset == 0 ==> Prepend(vec, value) == vec
    ensures vec.offset > 0 ==>
      var r := Prepend(vec, value);
      && Count(r) == Count(vec) + 1
      && Get(r, 0) == Ok(value)
      && forall j: u32 :: j < vec.length ==> Get(r, j + 1) == Get(vec, j)
  {
    hide Nodes.Set, Nodes.NewRoot, Nodes.SetPath, Nodes.Descendable, Halve, Pow2, Nodes.Walkable, Nodes.Get, Nodes.Leaf, Nodes.Reach;
  }

  /** `Truncate(n)` keeps the indices below `n`, and truncating twice to `n` is truncating once. */
  lemma TruncateThenGet<V>(vec: Vector<V>, n: u32, cut: Nodes.Node<V>, again: Nodes.Node<V>)
    requires Valid(vec)
    requires n < vec.length ==> KeepsBelow(vec.root, vec.offset + n, cut)
    ensures var r := Truncate(vec, n, cut);
      && Count(r) == (if n < vec.length then n else vec.length)
      && (forall j: u32 :: j < n ==> Get(r, j) == Get(vec, j))
      && (forall j: u32 :: j >= n ==> Get(r, j).Err?)
      && Truncate(r, n, again) == r
  {
  }

  /**
    A vector `Truncate` shortened to a non-empty prefix accepts an append,
    whatever shape `Node.Truncate` left: `Append(v)` reads `v` at `n` and the
    kept prefix as before.
  */
  lemma TruncateThenAppend<V>(vec: Vector<V>, n: u32, cut: Nodes.Node<V>, value: V)
    requires Valid(vec) && 0 < n < vec.length && KeepsBelow(vec.root, vec.offset + n, cut)
    requires cut.shift + BITS <= U32_MAX
    ensures Appendable(Truncate(vec, n, cut))
    ensures var r := Append(Truncate(vec, n, cut), value);
      && Count(r) == n + 1
      && Get(r, n) == Ok(value)
      && forall j: u32 :: j < n ==> Get(r, j) == Get(vec, j)
  {
    var t := Truncate(vec, n, cut);
    TruncateThenGet(vec, n, cut, cut);
    AppendThenGet(t, value);
  }

  /** `Drop(n)` makes old index `n + i` the new index `i`. */
  lemma DropThenGet<V>(vec: Vector<V>, n: u32, erased: Nodes.Node<V>)
    requires Valid(vec)
    requires 0 < n < vec.length ==> KeepsFrom(vec.root, vec.offset + n, End(vec), erased)
    ensures var r := Drop(vec, n, erased);
      && Count(r) == (if n < vec.length then vec.length - n else 0)
      && forall j: u32 :: j < Count(r) ==> Get(r, j) == Get(vec, n + j)
  {
  }
}
